=== FILE: README.md ===
# Canvas chat: the spatial graph engine

This project models the engine behind the branching-chat canvas. Conversation
turns are nodes placed on an infinite 2-D canvas. Directed connections join
them. The model covers seven parts:

- **Placement** (`placement.dfy`, module `Placement`). `checkCollision` is a
  buffered box-overlap test. `getSmartPosition` is a bounded search for a
  free slot, biased to the right, downward or along a spiral. It is a
  `while` loop proved against the specification function `SmartPosition`,
  which is defined through the recursive `FirstFree`.
- **Graph store** (`store.dfy`, module `Store`). The class `CanvasStore`
  holds the node, connection and agent lists, the selection and the global
  system prompt. Each command replaces a field with a function of its old
  value: append, merge by id, cascade delete, toggle, replace or reset. The
  list functions carry the "nothing else changes" contracts. Lemmas show
  that removal leaves no dangling edge, that ids stay unique, that add then
  remove restores the graph, and that updates of distinct nodes commute.
- **Connection router** (`router.dfy`, module `Router`). It maps a
  connection and the node list to nothing, or to the cubic Bézier segment
  (section 8.3.6 of SVG 1.1) between the two nodes' anchors. The segment is
  a record, not a path string.
- **Viewport** (`viewport.dfy`, module `Viewport`). The class `Viewport`
  holds pan, scale and the panning flag. It handles clamped zoom-to-cursor,
  wheel pan, drag pan and centring on a node. The zoom keeps the canvas
  point under the cursor fixed. Coordinates are exact reals.
- **Node commands** (`node_actions.dfy`, module `NodeActions`). These are
  dragging, branching, the two phases of submitting a prompt, and
  continuing below a node. Each is a fixed sequence of store commands at a
  placement computed by the search.
- **History** (`sidebar.dfy`, module `History`). The class `Sidebar` holds a
  list of saved snapshots, the current snapshot id and the rename in
  progress.
- **Minimap** (`minimap.dfy`, module `Minimap`). It is the affine map that
  shrinks the canvas by 0.05 and shifts it by 50, for nodes and for the
  viewport indicator.

`graph.dfy` (module `Graph`) holds the shared data model:

- the records;
- `Partial<T>` patches and their merge;
- JavaScript's `||` fallback, under which an absent value, `0` and `""` all
  fall back;
- the generic `map`-by-id, `filter` and `find` that every store command is
  built from.

Four details of the code that the model keeps:

- When all 100 attempts collide, `getSmartPosition` returns the preferred
  point, not the last point tried, because `x`/`y` are only assigned on
  success (lib/utils.ts:37-38, 115).
- The first attempt of the "right" and "bottom" searches re-tests the
  preferred point.
- The router's target node defaults to height 100, and that height is never
  used. The minimap's default node height is also 100. Placement and
  centring use 450×200.
- A measured width or height of 0 counts as unmeasured.

## Model

| member | source | states |
|---|---|---|
| Graph.MapById | lib/store.ts:90-93 | Mapping by id rewrites exactly the elements carrying the id and keeps every other element, the length and the positions. |
| Graph.Filter | lib/store.ts:102-106 | An element is in the filtered list iff it was in the list and passes the predicate; the list never grows. |
| Graph.FilterCounts | lib/store.ts:102-106 | Filtering keeps every passing element exactly as many times as it occurred and drops every occurrence of the others. |
| Graph.Merge | lib/store.ts:90-93 | The spread `{ ...n, ...patch }`: every field the patch carries is written, every other field keeps its value; the empty patch changes nothing. |
| Graph.MergeAgent | lib/store.ts:114-116 | The spread `{ ...a, ...patch }`: written fields take the patch's value, the others keep theirs. |
| Graph.FilterIsSubsequence | lib/store.ts:102-106 | Filtering keeps the relative order of the elements it keeps. |
| Graph.FindIndex | components/connection-line.tsx:9-10 | The position `find` by id stops at: the first position holding the id, and nothing exactly when no element has it. |
| Graph.Find | components/connection-line.tsx:9-10 | `find` by id returns the element at `FindIndex`'s position, which carries the id, and nothing exactly when no element has it. |
| Placement.CheckCollision | lib/utils.ts:19-26 | Two boxes collide iff no axis separates them, where each box is widened by the buffer past its own far (right or bottom) edge; i.e. they overlap strictly on both axes. |
| Placement.CollisionSymmetric | lib/utils.ts:19-26 | The collision test is symmetric in its two boxes. |
| Placement.CollisionMonotoneInBuffer | lib/utils.ts:19-26 | A larger buffer never removes a collision. |
| Placement.SearchBufferIsStricter | lib/utils.ts:19-58 | Every collision under the default buffer of 20 is also a collision under the search buffer of 50. |
| Placement.HasCollision | lib/utils.ts:50-58 | The box at the point collides with some existing node (sized `width \|\| 450` by `height \|\| 200`) under buffer 50; with no existing nodes nothing collides. |
| Placement.Candidate | lib/utils.ts:66-112 | Attempt k: "right" moves floor((k-1)/5) columns of width + 50 right and cycles the row offsets 0, -s, +s, -2s, +2s (s = height + 50); "bottom" does the same with the axes exchanged; "any" is the spiral point at angle 0.5k and radius 50k. |
| Placement.CeilHalf | lib/utils.ts:74 | `Math.ceil(n / 2)` is the c with n <= 2c < n + 2. |
| Placement.LaneCycle | lib/utils.ts:72-77 | Within a group of five attempts the lane offsets cycle 0, -s, +s, -2s, +2s with s = size + 50. |
| Placement.FirstAttemptIsPreferred | lib/utils.ts:63-77 | The first attempt of the "right" and "bottom" searches re-tests the preferred point. |
| Placement.RightAdvancesColumn | lib/utils.ts:72-77 | With the "right" bias, five attempts later the candidate is one column (width + 50) further right in the same lane. |
| Placement.BottomMirrorsRight | lib/utils.ts:88-93 | The "bottom" search is the "right" search with the axes and the box dimensions exchanged. |
| Placement.FirstFree | lib/utils.ts:63-113 | The first attempt in range whose candidate collides with no existing node (sized `width \|\| 450` by `height \|\| 200`, buffer 50), never beyond 100; when there is none, every attempt up to 100 collides. |
| Placement.SmartPosition | lib/utils.ts:28-116 | A free preferred point (including one with no existing nodes) is returned unchanged; any result is either the preferred point or free of collisions; and whenever some attempt within 100 is free, the result is free. |
| Placement.FreeAttemptIsFound | lib/utils.ts:60-113 | When the preferred point collides and attempt k ≤ 100 is free, the search returns the first free candidate, found no later than attempt k. |
| Placement.MovedIsFirstFreeCandidate | lib/utils.ts:63-113 | A result other than the preferred point is the candidate of some attempt 1..100, and every earlier attempt collided. |
| Placement.ExhaustedKeepsPreferred | lib/utils.ts:37-115 | When the preferred point and all 100 candidates collide, the preferred point is returned. |
| Placement.GetSmartPosition | lib/utils.ts:28-116 | The loop performs at most 100 attempts, terminates, and returns exactly `SmartPosition` of its arguments. |
| Placement.BottomBesideSingleNode | lib/utils.ts:28-116 | A 100×100 box preferred on top of a 100×100 node at the origin is placed at (-150, 0) with the "bottom" bias, one lane to the left. |
| Store.UpdateNodes | lib/store.ts:90-93 | `updateNode` merges the patch into exactly the nodes with the id; other nodes, count and order are kept. |
| Store.SetContent | lib/store.ts:94-97 | `updateNodeContent` changes only the content of the nodes with the id. |
| Store.SetPosition | lib/store.ts:98-101 | `updateNodePosition` changes only `x` and `y` of the nodes with the id. |
| Store.ToggleExpanded | lib/store.ts:107-110 | Matching nodes get `expanded` negated, absent reading as false, and nothing else changes; other nodes are kept. |
| Store.WithoutNode | lib/store.ts:102-106 | Exactly the nodes without the id remain. |
| Store.WithoutEdgesOf | lib/store.ts:102-106 | Exactly the connections touching the id at neither end remain. |
| Store.UpdateAgents | lib/store.ts:114-116 | `updateAgent` merges the patch into the matching agents only; count and order are kept. |
| Store.UpdateAbsentIsNoop | lib/store.ts:90-93 | Updating an id no node carries leaves the list unchanged. |
| Store.RemoveCascades | lib/store.ts:102-106 | After `removeNode(id)` no node has the id, no connection starts or ends at it, every other node and connection is kept as often as it occurred, and what remains keeps its relative order. |
| Store.RemoveKeepsNoDangling | lib/store.ts:102-106 | A graph with no dangling connection still has none after a removal. |
| Store.AddKeepsUniqueIds | lib/store.ts:89 | Appending a node with a fresh id keeps ids unique. |
| Store.UpdateKeepsUniqueIds | lib/store.ts:90-93 | A patch that does not write `id` keeps ids unique. |
| Store.RemoveKeepsUniqueIds | lib/store.ts:102-106 | Removing by id keeps ids unique. |
| Store.AddThenRemoveRestores | lib/store.ts:89-106 | Adding a node with a fresh id and then removing it restores both lists. |
| Store.UpdatesOfDistinctNodesCommute | lib/store.ts:90-93 | Updates of two different nodes give the same list in either order. |
| Store.CanvasStore.constructor | lib/store.ts:70-87 | The initial store holds the single node "1", no connections, no selection, the six predefined agents and an empty system prompt. |
| Store.CanvasStore.AddNode | lib/store.ts:89 | Appends the node at the end; every other field is unchanged. |
| Store.CanvasStore.UpdateNode | lib/store.ts:90-93 | The nodes become `UpdateNodes` of the old nodes; every other field is unchanged. |
| Store.CanvasStore.UpdateNodeContent | lib/store.ts:94-97 | The nodes become `SetContent` of the old nodes; every other field is unchanged. |
| Store.CanvasStore.UpdateNodePosition | lib/store.ts:98-101 | The nodes become `SetPosition` of the old nodes; every other field is unchanged. |
| Store.CanvasStore.RemoveNode | lib/store.ts:102-106 | Nodes and connections lose the id (cascade); agents, selection and prompt are unchanged. |
| Store.CanvasStore.ToggleNodeExpanded | lib/store.ts:107-110 | The nodes become `ToggleExpanded` of the old nodes; every other field is unchanged. |
| Store.CanvasStore.AddConnection | lib/store.ts:111 | Appends the connection with no check on its endpoints or uniqueness; every other field is unchanged. |
| Store.CanvasStore.SelectNode | lib/store.ts:112 | Only the selection changes. |
| Store.CanvasStore.AddAgent | lib/store.ts:113 | Appends the agent; every other field is unchanged. |
| Store.CanvasStore.UpdateAgent | lib/store.ts:114-116 | The agents become `UpdateAgents` of the old agents; every other field is unchanged. |
| Store.CanvasStore.SetSystemPrompt | lib/store.ts:117 | Only the system prompt changes. |
| Store.CanvasStore.ResetCanvas | lib/store.ts:118-135 | Exactly one empty input node "1" at (600, 400), no connections, nothing selected; agents and system prompt are untouched. |
| Store.CanvasStore.SetCanvas | lib/store.ts:136 | Nodes and connections are replaced exactly; agents, system prompt and selection are unchanged. |
| Router.Bend | components/connection-line.tsx:52-68 | The curve runs from start to end. A horizontal S-curve keeps each control point at its end's y, shifted by \|dx\|/2. A vertical one keeps its end's x, shifted by \|dy\|/2. The control points are symmetric about the midpoint. |
| Router.Route | components/connection-line.tsx:8-69 | A curve is produced iff both the source and the target id are found among the nodes. |
| Router.RouteGeometry | components/connection-line.tsx:19-69 | The curve starts at the source's anchor and ends at the target's, for the first node with each id. Only a right-to-left connection is a horizontal S-curve. |
| Router.StartAnchor | components/connection-line.tsx:14-39 | The start anchor is the midpoint of the source box's right edge ("right"), left edge ("left"), or bottom edge (anything else); the box defaults to 450×200. |
| Router.EndAnchor | components/connection-line.tsx:14-50 | The end anchor is 40 below the target's top-left corner ("left"), or the midpoint of its top edge (anything else; default width 450). |
| Router.StartAnchorOnBox | components/connection-line.tsx:14-39 | The start anchor lies on the source box (default 450×200): at half height on the right or left side, or at half width on the bottom side. |
| Router.EndAnchorOnBox | components/connection-line.tsx:14-50 | The end anchor is 40 below the target's top-left corner, or on its top edge (default width 450). |
| Router.StrokeColor | components/connection-line.tsx:71 | The stroke is the connection's non-empty colour, otherwise `#444`; it is never empty. |
| Viewport.ClampScale | components/canvas.tsx:94 | The new scale is scale - deltaY·0.001 clamped to [0.2, 3], so it always lies in that range. |
| Viewport.ScreenCanvasRoundTrip | components/canvas.tsx:105-112 | Screen-to-canvas followed by canvas-to-screen is the identity for a non-zero scale. |
| Viewport.ZoomPan | components/canvas.tsx:105-115 | After zooming, the canvas point under the cursor is the same as before, on both axes. |
| Viewport.CenterPan | components/canvas.tsx:68-85 | The pan puts the centre of the node's box (default 450×200) at the centre of the viewport. |
| Viewport.ZoomFromOriginExample | components/canvas.tsx:90-122 | Zooming in from scale 1 by deltaY -1000 at (400, 300) gives scale 2 and pan (-400, -300). |
| Viewport.Viewport.constructor | components/canvas.tsx:17-19 | Starts not panning, at pan (0, 0) and scale 1, which is within the scale range. |
| Viewport.Viewport.HandleWheel | components/canvas.tsx:90-122 | With ctrl or meta: clamped zoom to the cursor, or nothing when there is no container rectangle. Without: the pan moves by minus the deltas and the scale is kept. The scale stays in [0.2, 3]. |
| Viewport.Viewport.HandleMouseDown | components/canvas.tsx:24-39 | A press outside interactive elements starts panning; one on them changes nothing. |
| Viewport.Viewport.HandleMouseMove | components/canvas.tsx:41-51 | The pan moves by the pointer's movement only while panning; otherwise nothing changes. |
| Viewport.Viewport.HandleMouseUp | components/canvas.tsx:53-55 | Panning stops; pan and scale are kept. |
| Viewport.Viewport.CenterNode | components/canvas.tsx:66-88 | The pan becomes `CenterPan` of the first node with the id; nothing changes when no node has it. |
| Minimap.ToMinimap | components/minimap.tsx:21-22 | A canvas coordinate maps to `v·0.05 + 50`, and `FromMinimap` recovers it. |
| Minimap.MinimapPreservesOrder | components/minimap.tsx:21-22 | The mapping is strictly increasing, so the relative order of nodes is preserved. |
| Minimap.NodeBox | components/minimap.tsx:21-24 | A node is drawn at its mapped position, with size (`width \|\| 450`)·0.05 by (`height \|\| 100`)·0.05. |
| Minimap.IndicatorBox | components/minimap.tsx:33-36 | The indicator is drawn at the mapped negated pan, with size window / scale · 0.05, and size 0 without a window. |
| Minimap.VisibleRegionBox | components/minimap.tsx:33-36 | The minimap image of the canvas region the window shows, from its top-left to its bottom-right canvas point. |
| Minimap.IndicatorAgreesAtUnitScale | components/minimap.tsx:33-36 | At scale 1 the drawn indicator is exactly the visible region's image. |
| Minimap.IndicatorMisplacedWhenZoomed | components/minimap.tsx:33-34 | At scale 2 and pan (-400, -300), the window's top-left shows canvas point (200, 150), mapped to (60, 57.5). The indicator is drawn at (70, 65). |
| NodeActions.DragPosition | components/node.tsx:46-56 | The node's travel since the press, times the scale, equals the pointer's travel in screen pixels. |
| NodeActions.DragMove | components/node.tsx:52-56 | Only the dragged node's position changes, to `DragPosition`. |
| NodeActions.HandleBranch | components/node.tsx:88-128 | Appends an empty input node at the "right"-biased slot near (x + 600, y) for a 450×200 box. The node quotes the selection, has `sourceId` = the node and inherits model, agent and colour. A right-to-left edge in the node's colour follows. Unique ids and the absence of dangling edges are preserved. |
| NodeActions.AddChildKeepsNoDangling | components/node.tsx:105-125 | Adding a child and an edge from an existing node keeps the graph free of dangling connections. |
| NodeActions.ActiveSystemPrompt | components/node.tsx:183-184 | The prompt sent is the node's agent's non-empty system prompt; in every other case (no agent id, no such agent, absent or empty prompt) it is the global one. |
| NodeActions.IsBlank | components/node.tsx:132-133 | `!s.trim()`: trimming leading and trailing whitespace leaves nothing exactly when every character is whitespace. |
| NodeActions.CompletionPatch | components/node.tsx:188-198 | The completion patch writes kind `response`, `isStreaming` false and the reply's text (or the fixed error text), and no other field. |
| NodeActions.SubmitStart | components/node.tsx:131-179 | Blank or whitespace-only content changes nothing. Otherwise: the typed content is written back unless overridden; a streaming loading node is placed below (height `\|\| 200`, plus 100, "bottom" bias); a bottom-to-top edge is added; the request carries the agent's or the global system prompt. |
| NodeActions.SubmitComplete | components/node.tsx:181-198 | Only the response node is updated; nothing changes if it is gone. |
| NodeActions.CompletionEffect | components/node.tsx:188-198 | The response node becomes a non-streaming response holding the text, or the fixed error message on failure; its other fields and all other nodes are kept. |
| NodeActions.CompletionsCommute | components/node.tsx:181-198 | Two completions for different nodes give the same list in either order. |
| NodeActions.HandleContinue | components/node.tsx:202-241 | Appends an input node holding the text at the "bottom"-biased slot 50 below the node, with a bottom-to-top edge. |
| History.EmptyCanvasGuard | components/sidebar.tsx:46 | The guard throws exactly on an empty node list, and holds exactly for a single node with empty content. |
| History.IsEmptyCanvas | components/sidebar.tsx:46 | The intended guard: at most one node, and no content. |
| History.IntendedGuardAgrees | components/sidebar.tsx:46 | Where the written guard does not throw, it agrees with the intended one. |
| History.GuardThrowsAfterDeletingLastNode | components/sidebar.tsx:46 | After deleting the only node of a fresh canvas the written guard throws, while the intended one skips. |
| History.ReplaceSnapshot | components/sidebar.tsx:50-56 | Only the snapshot with the id gets the new graph and timestamp; length and order are kept. |
| History.Rename | components/sidebar.tsx:115-123 | Only the name of the items with the id changes. |
| History.WithoutItem | components/sidebar.tsx:101-107 | Exactly the items without the id remain. |
| History.DeleteKeepsOrder | components/sidebar.tsx:101-107 | Deletion keeps every other item as often as it occurred and in its order, and no remaining item has the id. |
| History.Save | components/sidebar.tsx:45-71 | With the corrected guard, nothing is saved exactly when the canvas has no nodes or a single empty node. A non-empty canvas is saved as an update exactly when a current id is set, and as a new snapshot exactly when none is. With a current id, only that snapshot changes: it gets the graph and the timestamp and keeps its id and name, and the length is kept. Without one, a snapshot of the graph is prepended and becomes current. |
| History.Sidebar.constructor | components/sidebar.tsx:23-26 | Starts from the saved history with no edit in progress and no current canvas. |
| History.Sidebar.SaveCurrentCanvas | components/sidebar.tsx:45-71 | History, current id and outcome are those of `Save`; the rename state is kept. |
| History.Sidebar.SyncCurrent | components/sidebar.tsx:78-87 | While the sidebar is open with a current id, that snapshot follows the graph; otherwise nothing changes. |
| History.Sidebar.LoadCanvas | components/sidebar.tsx:89-93 | The store's graph becomes the item's nodes and connections, and the item becomes current. |
| History.Sidebar.StartNewCanvas | components/sidebar.tsx:95-99 | The history is that of `Save`, the store is reset (agents and prompt kept) and the current id is cleared. |
| History.Sidebar.DeleteCanvas | components/sidebar.tsx:101-107 | The history becomes `WithoutItem`; the current id is cleared iff it was the deleted one. |
| History.Sidebar.StartEditing | components/sidebar.tsx:109-113 | The item becomes the one being edited, with its name as the edit text. |
| History.Sidebar.SaveName | components/sidebar.tsx:115-123 | The edited item is renamed and the edit ends; with no edit in progress nothing changes. |

## Left out

- The generation service (app/actions.ts) is a foreign asynchronous call. It appears only as its outcome, `Reply` (text or failure), handed to `SubmitComplete`. The two phases of a submit are separate methods; interleavings of in-flight requests are not modelled, beyond the lemma that completions commute.
- Fresh ids (`generateId`, `crypto.randomUUID`), `Date.now`, display names from `toLocaleDateString`, and measured heights (`offsetHeight`) and container rectangles are parameters.
- The `localStorage` load and save of the history are not modelled. The sidebar's constructor takes the loaded list.
- React rendering, event-listener registration and the `closest(...)` target tests are not modelled. A press on an interactive element arrives as a boolean. The Markdown, portal, textarea and attachment state of a node are also out.
- The local text-selection state cleared by `handleBranch` (`setSelection(null)`) is not modelled; it is not part of the store.
- The effect in components/node.tsx that writes the measured width and height back is an ordinary `UpdateNode` call and is not modelled separately.
- components/agent-toolbar.tsx, components/canvas/node-header.tsx and app/page.tsx are not part of this model. They are forms and markup; the toolbar's placement call with a random preferred point is `GetSmartPosition` with the "any" bias.
- The "any" spiral uses cosine and sine. These are parameters of `Direction.Any`, and nothing is proved about the spiral's geometry beyond what holds for every candidate.
- Numbers are exact reals. Floating-point rounding, NaN and infinities are not modelled.
- The SVG path string `M … C …` and the markup around it are not modelled; the router returns the curve's four points.
- A patch cannot set an optional field back to `undefined`: `Some` writes, `None` keeps. No caller in the core does this.
- Store.CanvasStore.AddNode: no uniqueness check, as in the source. Id uniqueness is a separate lemma (`AddKeepsUniqueIds`) under a fresh-id precondition.
- History.Sidebar.StartNewCanvas: on an empty node list the source throws inside `saveCurrentCanvas` before `resetCanvas` runs (components/sidebar.tsx:96-97), so nothing is reset; the model, using the corrected guard, saves nothing and resets.
- History.Sidebar.SaveCurrentCanvas: uses the corrected empty-canvas guard, so the exception on an empty node list (see Findings) is not part of the class.
- NodeActions.HandleContinue: the blank-text check lives in the continue input, outside `handleContinue`, so the method accepts any text.

## Findings

| source | as written | input that shows it | evidently intended | confidence | as-written member | corrected member |
|---|---|---|---|---|---|---|
| components/sidebar.tsx:46 | `nodes.length <= 1 && nodes[0].content === ""` reads `nodes[0]` of an empty list and throws, so `startNewCanvas` stops before resetting | delete the only node of a fresh canvas, then start a new canvas | an empty node list is an empty canvas and is skipped | high; not executed | History.GuardThrowsAfterDeletingLastNode | History.IsEmptyCanvas |
| components/minimap.tsx:33-34 | the indicator is placed at `-pan · 0.05 + 50`, the pan in screen pixels not divided by the scale, while its size is divided by it | scale 2, pan (-400, -300), window 800×600: the region shown starts at canvas point (200, 150), drawn at (60, 57.5); the indicator starts at (70, 65) | the indicator is the minimap image of the visible region, placed at `-pan / scale · 0.05 + 50` | medium; not executed | Minimap.IndicatorMisplacedWhenZoomed | Minimap.VisibleRegionBox |

`History.EmptyCanvasGuard` and `Minimap.IndicatorBox` model the code as
written. The rest of the model uses the corrected definitions:
`History.Save` and so the `Sidebar` class use `History.IsEmptyCanvas`, so
starting a new canvas always resets. `Minimap.VisibleRegionBox` is the
indicator. `History.IntendedGuardAgrees` and
`Minimap.IndicatorAgreesAtUnitScale` prove that each corrected definition
agrees with the written code: the guard wherever the written one does not
throw, the indicator at scale 1.

=== FILE: graph.dfy ===
/** The data model of the canvas (nodes, connections, agents), the partial
    records that `updateNode` / `updateAgent` merge into them, JavaScript's
    `||` fallbacks, and the list operations (`map` by id, `filter`, `find`)
    that every command of the store is built from. */
module Graph {

  datatype Option<T> = None | Some(value: T)

  /** `v || d` on an optional number: an absent value and 0 both fall back to `d`. */
  function NumberOr(v: Option<real>, d: real): real {
    if v.Some? && v.value != 0.0 then v.value else d
  }

  /** `s || d` on an optional string: an absent value and "" both fall back to `d`. */
  function StringOr(v: Option<string>, d: string): string {
    if v.Some? && v.value != "" then v.value else d
  }

  /** JavaScript truthiness of an optional string (`null`, `undefined` and "" are falsy). */
  predicate Truthy(s: Option<string>) {
    s.Some? && s.value != ""
  }

  /** A point in canvas (or screen) coordinates, y pointing down. */
  datatype Point = Point(x: real, y: real)

  function Abs(v: real): (r: real)
    ensures r >= 0.0 && (r == v || r == -v)
  {
    if v < 0.0 then -v else v
  }

  datatype NodeKind = Input | Response | Loading

  datatype Anchor = Top | Right | Bottom | Left

  /** NodeData: a turn of the conversation placed on the canvas. `width` and
      `height` are the last measured rendered size, absent until measured. */
  datatype Node = Node(
    id: string,
    kind: NodeKind,
    x: real,
    y: real,
    content: string,
    model: Option<string>,
    agentId: Option<string>,
    agentColor: Option<string>,
    sourceId: Option<string>,
    contextQuote: Option<string>,
    isStreaming: Option<bool>,
    expanded: Option<bool>,
    width: Option<real>,
    height: Option<real>)

  /** A directed edge; its endpoints are not required to exist. */
  datatype Connection = Connection(
    id: string,
    fromId: string,
    toId: string,
    fromAnchor: Option<Anchor>,
    toAnchor: Option<Anchor>,
    color: Option<string>)

  datatype Agent = Agent(
    id: string,
    name: string,
    color: string,
    description: Option<string>,
    systemPrompt: Option<string>)

  /** `Partial<NodeData>`: a `Some` field is written by the merge `{ ...n, ...patch }`. */
  datatype NodePatch = NodePatch(
    id: Option<string>,
    kind: Option<NodeKind>,
    x: Option<real>,
    y: Option<real>,
    content: Option<string>,
    model: Option<string>,
    agentId: Option<string>,
    agentColor: Option<string>,
    sourceId: Option<string>,
    contextQuote: Option<string>,
    isStreaming: Option<bool>,
    expanded: Option<bool>,
    width: Option<real>,
    height: Option<real>)

  /** `Partial<Agent>` */
  datatype AgentPatch = AgentPatch(
    id: Option<string>,
    name: Option<string>,
    color: Option<string>,
    description: Option<string>,
    systemPrompt: Option<string>)

  const EmptyPatch := NodePatch(None, None, None, None, None, None, None, None, None, None, None, None, None, None)

  function Pick<T>(p: Option<T>, prev: T): T {
    if p.Some? then p.value else prev
  }

  function PickOpt<T>(p: Option<T>, prev: Option<T>): Option<T> {
    if p.Some? then p else prev
  }

  /** The object spread `{ ...n, ...p }`: every field the patch carries is
      written, every other field keeps its value, and the empty patch
      changes nothing. */
  function Merge(n: Node, p: NodePatch): (r: Node)
    ensures p == EmptyPatch ==> r == n
    ensures p.id.Some? ==> r.id == p.id.value
    ensures p.id.None? ==> r.id == n.id
    ensures p.kind.Some? ==> r.kind == p.kind.value
    ensures p.kind.None? ==> r.kind == n.kind
    ensures p.x.Some? ==> r.x == p.x.value
    ensures p.x.None? ==> r.x == n.x
    ensures p.y.Some? ==> r.y == p.y.value
    ensures p.y.None? ==> r.y == n.y
    ensures p.content.Some? ==> r.content == p.content.value
    ensures p.content.None? ==> r.content == n.content
    ensures p.model.Some? ==> r.model == p.model
    ensures p.model.None? ==> r.model == n.model
    ensures p.agentId.Some? ==> r.agentId == p.agentId
    ensures p.agentId.None? ==> r.agentId == n.agentId
    ensures p.agentColor.Some? ==> r.agentColor == p.agentColor
    ensures p.agentColor.None? ==> r.agentColor == n.agentColor
    ensures p.sourceId.Some? ==> r.sourceId == p.sourceId
    ensures p.sourceId.None? ==> r.sourceId == n.sourceId
    ensures p.contextQuote.Some? ==> r.contextQuote == p.contextQuote
    ensures p.contextQuote.None? ==> r.contextQuote == n.contextQuote
    ensures p.isStreaming.Some? ==> r.isStreaming == p.isStreaming
    ensures p.isStreaming.None? ==> r.isStreaming == n.isStreaming
    ensures p.expanded.Some? ==> r.expanded == p.expanded
    ensures p.expanded.None? ==> r.expanded == n.expanded
    ensures p.width.Some? ==> r.width == p.width
    ensures p.width.None? ==> r.width == n.width
    ensures p.height.Some? ==> r.height == p.height
    ensures p.height.None? ==> r.height == n.height
  {
    Node(
      Pick(p.id, n.id), Pick(p.kind, n.kind), Pick(p.x, n.x), Pick(p.y, n.y),
      Pick(p.content, n.content), PickOpt(p.model, n.model), PickOpt(p.agentId, n.agentId),
      PickOpt(p.agentColor, n.agentColor), PickOpt(p.sourceId, n.sourceId),
      PickOpt(p.contextQuote, n.contextQuote), PickOpt(p.isStreaming, n.isStreaming),
      PickOpt(p.expanded, n.expanded), PickOpt(p.width, n.width), PickOpt(p.height, n.height))
  }

  /** The object spread `{ ...a, ...p }` on an agent: written fields take the
      patch's value, the others keep theirs. */
  function MergeAgent(a: Agent, p: AgentPatch): (r: Agent)
    ensures p.id.Some? ==> r.id == p.id.value
    ensures p.id.None? ==> r.id == a.id
    ensures p.name.Some? ==> r.name == p.name.value
    ensures p.name.None? ==> r.name == a.name
    ensures p.color.Some? ==> r.color == p.color.value
    ensures p.color.None? ==> r.color == a.color
    ensures p.description.Some? ==> r.description == p.description
    ensures p.description.None? ==> r.description == a.description
    ensures p.systemPrompt.Some? ==> r.systemPrompt == p.systemPrompt
    ensures p.systemPrompt.None? ==> r.systemPrompt == a.systemPrompt
  {
    Agent(Pick(p.id, a.id), Pick(p.name, a.name), Pick(p.color, a.color),
          PickOpt(p.description, a.description), PickOpt(p.systemPrompt, a.systemPrompt))
  }

  function NodeId(n: Node): string { n.id }

  function AgentId(a: Agent): string { a.id }

  /** `xs.map(e => idOf(e) === id ? f(e) : e)`: every element with the id is
      rewritten by `f`, every other element is left as it was, and the length
      and positions are kept. */
  function MapById<T>(xs: seq<T>, idOf: T -> string, id: string, f: T -> T): (r: seq<T>)
    ensures |r| == |xs|
    ensures forall i :: 0 <= i < |xs| && idOf(xs[i]) == id ==> r[i] == f(xs[i])
    ensures forall i :: 0 <= i < |xs| && idOf(xs[i]) != id ==> r[i] == xs[i]
    decreases |xs|
  {
    if xs == [] then []
    else
      var rest := MapById(xs[1..], idOf, id, f);
      [if idOf(xs[0]) == id then f(xs[0]) else xs[0]] + rest
  }

  /** `xs.filter(keep)`: exactly the elements that pass `keep` remain. */
  function Filter<T(==,!new)>(xs: seq<T>, keep: T -> bool): (r: seq<T>)
    ensures |r| <= |xs|
    ensures forall x :: x in r <==> x in xs && keep(x)
    decreases |xs|
  {
    if xs == [] then []
    else
      var rest := Filter(xs[1..], keep);
      assert forall x :: x in xs <==> x == xs[0] || x in xs[1..];
      (if keep(xs[0]) then [xs[0]] else []) + rest
  }

  /** `filter` keeps every passing element as many times as it occurred and
      drops every occurrence of the others. */
  lemma {:induction false} FilterCounts<T(!new)>(xs: seq<T>, keep: T -> bool)
    ensures forall x :: multiset(Filter(xs, keep))[x] == if keep(x) then multiset(xs)[x] else 0
    decreases |xs|
  {
    if xs != [] {
      FilterCounts(xs[1..], keep);
      assert xs == [xs[0]] + xs[1..];
      assert multiset(xs) == multiset([xs[0]]) + multiset(xs[1..]);
      var rest := Filter(xs[1..], keep);
      assert Filter(xs, keep) == (if keep(xs[0]) then [xs[0]] else []) + rest;
      assert multiset(Filter(xs, keep)) == multiset(if keep(xs[0]) then [xs[0]] else []) + multiset(rest);
    }
  }

  /** `r` is `xs` with some elements dropped and the others kept in order. */
  predicate Subsequence<T(==)>(r: seq<T>, xs: seq<T>)
    decreases |xs|
  {
    if r == [] then true
    else if xs == [] then false
    else (r[0] == xs[0] && Subsequence(r[1..], xs[1..])) || Subsequence(r, xs[1..])
  }

  /** `filter` keeps the relative order of what it keeps. */
  lemma {:induction false} FilterIsSubsequence<T(!new)>(xs: seq<T>, keep: T -> bool)
    ensures Subsequence(Filter(xs, keep), xs)
    decreases |xs|
  {
    if xs != [] {
      FilterIsSubsequence(xs[1..], keep);
      var rest := Filter(xs[1..], keep);
      if keep(xs[0]) {
        assert Filter(xs, keep) == [xs[0]] + rest;
        assert ([xs[0]] + rest)[1..] == rest;
      } else {
        assert Filter(xs, keep) == rest;
        SubsequenceSkip(rest, xs);
      }
    }
  }

  lemma SubsequenceSkip<T>(r: seq<T>, xs: seq<T>)
    requires xs != [] && Subsequence(r, xs[1..])
    ensures Subsequence(r, xs)
  {
  }

  /** Filtering a concatenation filters each part. */
  lemma {:induction false} FilterAppend<T(!new)>(a: seq<T>, b: seq<T>, keep: T -> bool)
    ensures Filter(a + b, keep) == Filter(a, keep) + Filter(b, keep)
    decreases |a|
  {
    if a != [] {
      assert (a + b)[1..] == a[1..] + b;
      FilterAppend(a[1..], b, keep);
    } else {
      assert a + b == b;
    }
  }

  /** A filter that every element passes returns the list unchanged. */
  lemma {:induction false} FilterKeepsAll<T(!new)>(xs: seq<T>, keep: T -> bool)
    requires forall i :: 0 <= i < |xs| ==> keep(xs[i])
    ensures Filter(xs, keep) == xs
    decreases |xs|
  {
    if xs != [] {
      FilterKeepsAll(xs[1..], keep);
      assert [xs[0]] + xs[1..] == xs;
    }
  }

  /** The first position holding the id, if any: the position `find` stops at. */
  function FindIndex<T>(xs: seq<T>, idOf: T -> string, id: string): (r: Option<nat>)
    ensures r.Some? ==> r.value < |xs| && idOf(xs[r.value]) == id
    ensures r.Some? ==> forall j :: 0 <= j < r.value ==> idOf(xs[j]) != id
    ensures r.None? <==> forall j :: 0 <= j < |xs| ==> idOf(xs[j]) != id
    decreases |xs|
  {
    if xs == [] then None
    else if idOf(xs[0]) == id then Some(0)
    else
      match FindIndex(xs[1..], idOf, id)
      case None => None
      case Some(k) => Some(k + 1)
  }

  /** `xs.find(e => idOf(e) === id)`: the element at `FindIndex`'s position,
      which carries the id; nothing exactly when no element carries it. */
  function Find<T>(xs: seq<T>, idOf: T -> string, id: string): (r: Option<T>)
    ensures r.None? <==> forall j :: 0 <= j < |xs| ==> idOf(xs[j]) != id
    ensures r.Some? ==> FindIndex(xs, idOf, id).Some? && r.value == xs[FindIndex(xs, idOf, id).value] && idOf(r.value) == id
  {
    match FindIndex(xs, idOf, id)
    case None => None
    case Some(k) => Some(xs[k])
  }

  /** Some node in the list carries the id. */
  predicate HasNode(nodes: seq<Node>, id: string) {
    exists i :: 0 <= i < |nodes| && nodes[i].id == id
  }

  /** No two nodes share an id (the store assumes it; nothing enforces it). */
  predicate UniqueIds(nodes: seq<Node>) {
    forall i, j :: 0 <= i < j < |nodes| ==> nodes[i].id != nodes[j].id
  }

  /** Every connection's endpoints are nodes of the graph. */
  predicate NoDangling(nodes: seq<Node>, connections: seq<Connection>) {
    forall c :: c in connections ==> HasNode(nodes, c.fromId) && HasNode(nodes, c.toId)
  }
}

=== FILE: minimap.dfy ===
/** The minimap (components/minimap.tsx): canvas coordinates shrunk by a
    factor of 0.05 and shifted by 50, for every node and for the viewport
    indicator. */
module Minimap {
  import opened Graph
  import Viewport

  const MapScale: real := 0.05
  const MapOffset: real := 50.0
  /** Unmeasured (or zero) node size on the minimap: 450 by 100. */
  const DefaultWidth: real := 450.0
  const DefaultHeight: real := 100.0

  /** An absolutely positioned box on the minimap. */
  datatype Box = Box(left: real, top: real, width: real, height: real)

  /** `window.innerWidth` / `window.innerHeight`. */
  datatype WindowSize = WindowSize(width: real, height: real)

  /** From the minimap back to the canvas. */
  function FromMinimap(m: real): real {
    (m - MapOffset) / MapScale
  }

  /** From the canvas to the minimap; `FromMinimap` undoes it. */
  function ToMinimap(v: real): (m: real)
    ensures FromMinimap(m) == v
  {
    v * MapScale + MapOffset
  }

  /** The mapping is strictly increasing, so it keeps the order of positions. */
  lemma MinimapPreservesOrder(a: real, b: real)
    ensures a < b <==> ToMinimap(a) < ToMinimap(b)
  {
  }

  /** The box a node is drawn as: its position mapped, its size
      (`width || 450` by `height || 100`) shrunk. */
  function NodeBox(n: Node): (r: Box)
    ensures FromMinimap(r.left) == n.x && FromMinimap(r.top) == n.y
    ensures r.width / MapScale == NumberOr(n.width, DefaultWidth)
    ensures r.height / MapScale == NumberOr(n.height, DefaultHeight)
  {
    Box(ToMinimap(n.x), ToMinimap(n.y), NumberOr(n.width, DefaultWidth) * MapScale, NumberOr(n.height, DefaultHeight) * MapScale)
  }

  /** The viewport indicator as the source draws it: at the negated pan,
      mapped, with the window size divided by the scale and shrunk, or size 0
      without a window. */
  function IndicatorBox(pan: Point, scale: real, window: Option<WindowSize>): (r: Box)
    requires scale != 0.0
    ensures FromMinimap(r.left) == -pan.x && FromMinimap(r.top) == -pan.y
    ensures window.None? ==> r.width == 0.0 && r.height == 0.0
    ensures window.Some? ==> r.width * scale == window.value.width * MapScale && r.height * scale == window.value.height * MapScale
  {
    var w := if window.Some? then window.value.width / scale else 0.0;
    var h := if window.Some? then window.value.height / scale else 0.0;
    Box(ToMinimap(-pan.x), ToMinimap(-pan.y), w * MapScale, h * MapScale)
  }

  /** The box the indicator should be: the minimap image of the canvas region
      the window shows, from the canvas point at the window's top-left corner
      to the one at its bottom-right corner. */
  function VisibleRegionBox(pan: Point, scale: real, window: WindowSize): (r: Box)
    requires scale != 0.0
    ensures var topLeft := Viewport.ScreenToCanvas(Point(0.0, 0.0), pan, scale);
            var bottomRight := Viewport.ScreenToCanvas(Point(window.width, window.height), pan, scale);
            r.left == ToMinimap(topLeft.x) && r.top == ToMinimap(topLeft.y) &&
            r.left + r.width == ToMinimap(bottomRight.x) && r.top + r.height == ToMinimap(bottomRight.y)
  {
    Box(ToMinimap(-pan.x / scale), ToMinimap(-pan.y / scale),
        window.width / scale * MapScale, window.height / scale * MapScale)
  }

  /** The drawn indicator has the right size, and the right place at scale 1. */
  lemma IndicatorAgreesAtUnitScale(pan: Point, window: WindowSize)
    ensures IndicatorBox(pan, 1.0, Some(window)) == VisibleRegionBox(pan, 1.0, window)
  {
  }

  /** Zoomed in to scale 2 with the pan at (-400, -300), the window's top-left
      corner shows canvas point (200, 150), which a node there is drawn at
      (60, 57.5) on the minimap; the drawn indicator starts at (70, 65). */
  lemma IndicatorMisplacedWhenZoomed()
    ensures var pan := Point(-400.0, -300.0);
            var window := WindowSize(800.0, 600.0);
            var shown := Viewport.ScreenToCanvas(Point(0.0, 0.0), pan, 2.0);
            && shown == Point(200.0, 150.0)
            && ToMinimap(shown.x) == 60.0 && ToMinimap(shown.y) == 57.5
            && IndicatorBox(pan, 2.0, Some(window)).left == 70.0
            && IndicatorBox(pan, 2.0, Some(window)).top == 65.0
            && VisibleRegionBox(pan, 2.0, window).left == 60.0
  {
  }
}

=== FILE: node_actions.dfy ===
/** The node commands of components/node.tsx: dragging a node, branching from
    it, submitting its prompt (a synchronous phase and a completion phase) and
    continuing a conversation below it. Each is a fixed sequence of store
    commands at a placement computed by `Placement.SmartPosition`. */
module NodeActions {
  import opened Graph
  import opened Placement
  import opened Store

  /** A branch is preferred 600 to the right of its parent. */
  const BranchOffset: real := 600.0
  /** Size requested from the placement search for every new node. */
  const NewWidth: real := 450.0
  const NewHeight: real := 200.0
  /** Height assumed when the parent's rendered height is unknown (or 0). */
  const UnmeasuredHeight: real := 200.0
  /** Gap below the parent for a reply, and for a continued question. */
  const ReplyGap: real := 100.0
  const ContinueGap: real := 50.0
  const ErrorText: string := "Error generating response. Please try again."

  /** Where a dragged node goes: its position at the press plus the pointer's
      travel since the press, converted from screen pixels to canvas units. */
  function DragPosition(startNode: Point, startPointer: Point, pointer: Point, scale: real): (r: Point)
    requires scale != 0.0
    ensures (r.x - startNode.x) * scale == pointer.x - startPointer.x
    ensures (r.y - startNode.y) * scale == pointer.y - startPointer.y
  {
    Point(startNode.x + (pointer.x - startPointer.x) / scale, startNode.y + (pointer.y - startPointer.y) / scale)
  }

  /** The move handler installed by `handleMouseDown` on the drag handle. */
  method DragMove(store: CanvasStore, node: Node, startNode: Point, startPointer: Point, pointer: Point, scale: real)
    requires scale != 0.0
    modifies store
    ensures var p := DragPosition(startNode, startPointer, pointer, scale);
            store.State() == old(store.State()).(nodes := SetPosition(old(store.nodes), node.id, p.x, p.y))
  {
    var p := DragPosition(startNode, startPointer, pointer, scale);
    store.UpdateNodePosition(node.id, p.x, p.y);
  }

  /** The input node a branch creates: empty, quoting the selection if any,
      pointing back at its parent and inheriting its model and agent. */
  function BranchNode(parent: Node, id: string, at: Point, quote: Option<string>): Node {
    Node(id, Input, at.x, at.y, "", parent.model, parent.agentId, parent.agentColor,
         Some(parent.id), quote, None, None, None, None)
  }

  /** The edge from a node to a new node, in the parent's agent colour. */
  function ChildEdge(parent: Node, childId: string, id: string, from: Anchor, to: Anchor): Connection {
    Connection(id, parent.id, childId, Some(from), Some(to), parent.agentColor)
  }

  /** The loading node a submit creates, replaced on completion. */
  function LoadingNode(parent: Node, id: string, at: Point): Node {
    Node(id, Loading, at.x, at.y, "", parent.model, parent.agentId, parent.agentColor,
         Some(parent.id), None, Some(true), None, None, None)
  }

  /** The input node `handleContinue` creates, holding the follow-up question. */
  function ContinueNode(parent: Node, id: string, at: Point, text: string): Node {
    Node(id, Input, at.x, at.y, text, parent.model, parent.agentId, parent.agentColor,
         Some(parent.id), None, None, None, None, None)
  }

  /** `handleBranch`: a new input node at the "right"-biased slot near
      (x + 600, y), joined to its parent by a right-to-left edge. */
  method HandleBranch(store: CanvasStore, node: Node, quote: Option<string>, newNodeId: string, connectionId: string)
    modifies store
    ensures var at := SmartPosition(Query(Point(node.x + BranchOffset, node.y), NewWidth, NewHeight, old(store.nodes), Direction.Right));
            store.State() == old(store.State()).(
              nodes := old(store.nodes) + [BranchNode(node, newNodeId, at, quote)],
              connections := old(store.connections) + [ChildEdge(node, newNodeId, connectionId, Anchor.Right, Anchor.Left)])
    ensures UniqueIds(old(store.nodes)) && !HasNode(old(store.nodes), newNodeId) ==> UniqueIds(store.nodes)
    ensures NoDangling(old(store.nodes), old(store.connections)) && HasNode(old(store.nodes), node.id) ==>
              NoDangling(store.nodes, store.connections)
  {
    var at := GetSmartPosition(node.x + BranchOffset, node.y, NewWidth, NewHeight, store.nodes, Direction.Right);
    ghost var before := store.State();
    var child := BranchNode(node, newNodeId, at, quote);
    store.AddNode(child);
    store.AddConnection(ChildEdge(node, newNodeId, connectionId, Anchor.Right, Anchor.Left));
    if UniqueIds(before.nodes) && !HasNode(before.nodes, newNodeId) {
      AddKeepsUniqueIds(before.nodes, child);
    }
    AddChildKeepsNoDangling(before.nodes, before.connections, node.id, child, ChildEdge(node, newNodeId, connectionId, Anchor.Right, Anchor.Left));
  }

  /** Adding a child node and an edge to it from a node of the graph leaves no
      dangling connection in a graph that had none. */
  lemma AddChildKeepsNoDangling(nodes: seq<Node>, connections: seq<Connection>, parentId: string, child: Node, edge: Connection)
    requires edge.fromId == parentId && edge.toId == child.id
    ensures NoDangling(nodes, connections) && HasNode(nodes, parentId) ==>
              NoDangling(nodes + [child], connections + [edge])
  {
    if NoDangling(nodes, connections) && HasNode(nodes, parentId) {
      var all := nodes + [child];
      assert all[|nodes|] == child;
      forall id | HasNode(nodes, id)
        ensures HasNode(all, id)
      {
        var i :| 0 <= i < |nodes| && nodes[i].id == id;
        assert all[i] == nodes[i];
      }
    }
  }

  /** Whitespace as `String.prototype.trim` removes it. */
  predicate IsWhitespace(c: char) {
    || c in {' ', '\t', '\n', '\r', '\U{000B}', '\U{000C}', '\U{00A0}', '\U{1680}',
             '\U{2028}', '\U{2029}', '\U{202F}', '\U{205F}', '\U{3000}', '\U{FEFF}'}
    || ('\U{2000}' <= c <= '\U{200A}')
  }

  /** `s` without its leading whitespace. */
  function TrimStart(s: string): (r: string)
    ensures |r| <= |s| && r == s[|s| - |r|..]
    ensures forall i :: 0 <= i < |s| - |r| ==> IsWhitespace(s[i])
    ensures r == [] || !IsWhitespace(r[0])
    decreases |s|
  {
    if s != [] && IsWhitespace(s[0]) then TrimStart(s[1..]) else s
  }

  /** `s` without its trailing whitespace. */
  function TrimEnd(s: string): (r: string)
    ensures |r| <= |s| && r == s[..|r|]
    ensures forall i :: |r| <= i < |s| ==> IsWhitespace(s[i])
    ensures r == [] || !IsWhitespace(r[|r| - 1])
    decreases |s|
  {
    if s != [] && IsWhitespace(s[|s| - 1]) then TrimEnd(s[..|s| - 1]) else s
  }

  /** `String.prototype.trim` */
  function Trim(s: string): string {
    TrimEnd(TrimStart(s))
  }

  /** `!s.trim()`: trimming leaves nothing, that is, every character is
      whitespace. */
  function IsBlank(s: string): (r: bool)
    ensures r <==> forall i :: 0 <= i < |s| ==> IsWhitespace(s[i])
  {
    Trim(s) == ""
  }

  /** `overrideContent || inputValue` */
  function SubmitContent(overrideContent: Option<string>, inputValue: string): string {
    StringOr(overrideContent, inputValue)
  }

  /** The system prompt sent with a request: the node's agent's own prompt when
      it is non-empty, otherwise the global one. */
  function ActiveSystemPrompt(agents: seq<Agent>, agentId: Option<string>, global: string): (r: string)
    ensures r == global || (agentId.Some? && exists a :: a in agents && a.id == agentId.value && a.systemPrompt == Some(r))
    ensures agentId.Some? && Find(agents, AgentId, agentId.value).Some? && Truthy(Find(agents, AgentId, agentId.value).value.systemPrompt)
            ==> r == Find(agents, AgentId, agentId.value).value.systemPrompt.value
    ensures !(agentId.Some? && Find(agents, AgentId, agentId.value).Some? && Truthy(Find(agents, AgentId, agentId.value).value.systemPrompt))
            ==> r == global
  {
    if agentId.None? then global
    else
      match Find(agents, AgentId, agentId.value)
      case None => global
      case Some(a) => StringOr(a.systemPrompt, global)
  }

  /** What the synchronous phase hands to the generation service and to the
      completion phase. */
  datatype PendingReply = PendingReply(responseId: string, prompt: string, context: Option<string>, systemInstruction: string)

  /** The abstract outcome of the generation service. */
  datatype Reply = Generated(text: string) | Failed

  /** The patch applied on completion: a response, no longer streaming, with
      the generated text or the fixed error text; no other field is written. */
  function CompletionPatch(reply: Reply): (p: NodePatch)
    ensures p.kind == Some(Response) && p.isStreaming == Some(false)
    ensures reply.Generated? ==> p.content == Some(reply.text)
    ensures reply.Failed? ==> p.content == Some(ErrorText)
    ensures p.(kind := None, content := None, isStreaming := None) == EmptyPatch
  {
    var content := if reply.Generated? then reply.text else ErrorText;
    EmptyPatch.(kind := Some(Response), content := Some(content), isStreaming := Some(false))
  }

  /** The preferred point below a node whose rendered height is `measured`
      (`|| 200`), `gap` further down. */
  function Below(node: Node, measured: Option<real>, gap: real): Point {
    Point(node.x, node.y + NumberOr(measured, UnmeasuredHeight) + gap)
  }

  /** The synchronous phase of `handleSubmit`. Nothing happens for blank
      content. Otherwise the typed content (not an override) is written back
      to the node, a loading node is added at the "bottom"-biased slot below
      the node, and a bottom-to-top edge joins them. */
  method SubmitStart(store: CanvasStore, node: Node, inputValue: string, overrideContent: Option<string>,
                     measuredHeight: Option<real>, responseId: string, connectionId: string)
    returns (pending: Option<PendingReply>)
    modifies store
    ensures var content := SubmitContent(overrideContent, inputValue);
            IsBlank(content) ==> pending.None? && store.State() == old(store.State())
    ensures var content := SubmitContent(overrideContent, inputValue);
            var written := if Truthy(overrideContent) then old(store.nodes)
                           else UpdateNodes(old(store.nodes), node.id, EmptyPatch.(content := Some(content)));
            var at := SmartPosition(Query(Below(node, measuredHeight, ReplyGap), NewWidth, NewHeight, written, Direction.Bottom));
            !IsBlank(content) ==>
              && pending == Some(PendingReply(responseId, content, node.contextQuote,
                                              ActiveSystemPrompt(old(store.agents), node.agentId, old(store.systemPrompt))))
              && store.State() == old(store.State()).(
                   nodes := written + [LoadingNode(node, responseId, at)],
                   connections := old(store.connections) + [ChildEdge(node, responseId, connectionId, Anchor.Bottom, Anchor.Top)])
  {
    var content := SubmitContent(overrideContent, inputValue);
    if IsBlank(content) {
      return None;
    }
    if !Truthy(overrideContent) {
      store.UpdateNode(node.id, EmptyPatch.(content := Some(content)));
    }
    var preferred := Below(node, measuredHeight, ReplyGap);
    var at := GetSmartPosition(preferred.x, preferred.y, NewWidth, NewHeight, store.nodes, Direction.Bottom);
    store.AddNode(LoadingNode(node, responseId, at));
    store.AddConnection(ChildEdge(node, responseId, connectionId, Anchor.Bottom, Anchor.Top));
    pending := Some(PendingReply(responseId, content, node.contextQuote,
                                 ActiveSystemPrompt(store.agents, node.agentId, store.systemPrompt)));
  }

  /** The completion phase of `handleSubmit`: only the response node is
      updated; if it was deleted meanwhile, nothing changes. */
  method SubmitComplete(store: CanvasStore, responseId: string, reply: Reply)
    modifies store
    ensures store.State() == old(store.State()).(nodes := UpdateNodes(old(store.nodes), responseId, CompletionPatch(reply)))
    ensures !HasNode(old(store.nodes), responseId) ==> store.State() == old(store.State())
  {
    if !HasNode(store.nodes, responseId) {
      UpdateAbsentIsNoop(store.nodes, responseId, CompletionPatch(reply));
    }
    store.UpdateNode(responseId, CompletionPatch(reply));
  }

  /** A completion turns its node into a response holding the reply (or the
      error text), no longer streaming, and touches no other node. */
  lemma CompletionEffect(nodes: seq<Node>, responseId: string, reply: Reply, i: nat)
    requires i < |nodes|
    ensures var r := UpdateNodes(nodes, responseId, CompletionPatch(reply));
            nodes[i].id != responseId ==> r[i] == nodes[i]
    ensures var r := UpdateNodes(nodes, responseId, CompletionPatch(reply));
            nodes[i].id == responseId ==>
              && r[i].kind == Response && r[i].isStreaming == Some(false)
              && r[i].content == (if reply.Generated? then reply.text else ErrorText)
              && r[i].(kind := nodes[i].kind, content := nodes[i].content, isStreaming := nodes[i].isStreaming) == nodes[i]
  {
  }

  /** Two completions for different response nodes resolving in either order
      leave the same node list. */
  lemma CompletionsCommute(nodes: seq<Node>, a: string, ra: Reply, b: string, rb: Reply)
    requires a != b
    ensures UpdateNodes(UpdateNodes(nodes, a, CompletionPatch(ra)), b, CompletionPatch(rb))
         == UpdateNodes(UpdateNodes(nodes, b, CompletionPatch(rb)), a, CompletionPatch(ra))
  {
    UpdatesOfDistinctNodesCommute(nodes, a, CompletionPatch(ra), b, CompletionPatch(rb));
  }

  /** `handleContinue`: an input node holding the text at the "bottom"-biased
      slot 50 below the node, joined by a bottom-to-top edge. */
  method HandleContinue(store: CanvasStore, node: Node, text: string, measuredHeight: Option<real>,
                        newNodeId: string, connectionId: string)
    modifies store
    ensures var at := SmartPosition(Query(Below(node, measuredHeight, ContinueGap), NewWidth, NewHeight, old(store.nodes), Direction.Bottom));
            store.State() == old(store.State()).(
              nodes := old(store.nodes) + [ContinueNode(node, newNodeId, at, text)],
              connections := old(store.connections) + [ChildEdge(node, newNodeId, connectionId, Anchor.Bottom, Anchor.Top)])
  {
    var preferred := Below(node, measuredHeight, ContinueGap);
    var at := GetSmartPosition(preferred.x, preferred.y, NewWidth, NewHeight, store.nodes, Direction.Bottom);
    store.AddNode(ContinueNode(node, newNodeId, at, text));
    store.AddConnection(ChildEdge(node, newNodeId, connectionId, Anchor.Bottom, Anchor.Top));
  }
}

=== FILE: placement.dfy ===
/** Collision-avoiding placement of a new node: the buffered box overlap test
    and the bounded, direction-biased search for a free slot (lib/utils.ts). */
module Placement {
  import opened Graph

  datatype Rect = Rect(x: real, y: real, width: real, height: real)

  /** The search bias. The spiral of `Any` needs cosine and sine; they are
      taken as given functions, nothing is assumed about them. */
  datatype Direction = Right | Bottom | Any(cos: real -> real, sin: real -> real)

  /** The arguments of `getSmartPosition`. */
  datatype Query = Query(preferred: Point, width: real, height: real, existing: seq<Node>, direction: Direction)

  /** Default buffer of `checkCollision`. */
  const DefaultBuffer: real := 20.0
  /** Buffer the placement search passes to `checkCollision`. */
  const SearchBuffer: real := 50.0
  const MaxAttempts: nat := 100
  /** Size assumed for an existing node that has not been measured (or measured as 0). */
  const DefaultWidth: real := 450.0
  const DefaultHeight: real := 200.0

  /** On some axis one box, widened by `buffer` past its far edge, still ends
      at or before the other begins. */
  predicate Separated(a: Rect, b: Rect, buffer: real) {
    || a.x + a.width + buffer <= b.x
    || b.x + b.width + buffer <= a.x
    || a.y + a.height + buffer <= b.y
    || b.y + b.height + buffer <= a.y
  }

  /** `checkCollision`: the boxes, each widened by `buffer`, overlap strictly
      on both axes, that is, no axis separates them. */
  function CheckCollision(a: Rect, b: Rect, buffer: real): (r: bool)
    ensures r <==> !Separated(a, b, buffer)
  {
    && a.x < b.x + b.width + buffer
    && a.x + a.width + buffer > b.x
    && a.y < b.y + b.height + buffer
    && a.y + a.height + buffer > b.y
  }

  lemma CollisionSymmetric(a: Rect, b: Rect, buffer: real)
    ensures CheckCollision(a, b, buffer) == CheckCollision(b, a, buffer)
  {
  }

  /** A wider buffer only adds collisions. */
  lemma CollisionMonotoneInBuffer(a: Rect, b: Rect, small: real, large: real)
    requires small <= large && CheckCollision(a, b, small)
    ensures CheckCollision(a, b, large)
  {
  }

  /** The placement search is stricter than the default test: every pair of
      boxes that collides under the default buffer collides under the search
      buffer. */
  lemma SearchBufferIsStricter(a: Rect, b: Rect)
    ensures CheckCollision(a, b, DefaultBuffer) ==> CheckCollision(a, b, SearchBuffer)
  {
    if CheckCollision(a, b, DefaultBuffer) {
      CollisionMonotoneInBuffer(a, b, DefaultBuffer, SearchBuffer);
    }
  }

  /** The box an existing node occupies, `width || 450` by `height || 200`. */
  function ExistingBox(n: Node): Rect {
    Rect(n.x, n.y, NumberOr(n.width, DefaultWidth), NumberOr(n.height, DefaultHeight))
  }

  /** `hasCollision(tx, ty)`: the box at `p` collides with some existing node
      under the search buffer; with no existing nodes nothing collides. */
  function HasCollision(existing: seq<Node>, width: real, height: real, p: Point): (r: bool)
    ensures r <==> exists n :: n in existing && !Separated(Rect(p.x, p.y, width, height), ExistingBox(n), SearchBuffer)
    ensures existing == [] ==> !r
  {
    exists i :: 0 <= i < |existing| && CheckCollision(Rect(p.x, p.y, width, height), ExistingBox(existing[i]), SearchBuffer)
  }

  /** `Math.ceil(n / 2)` for a natural number `n`. */
  function CeilHalf(n: nat): (c: nat)
    ensures n <= 2 * c < n + 2
  {
    (n + 1) / 2
  }

  /** The offset within a group of five attempts: 0, -s, +s, -2s, +2s with
      s = `across` + buffer. */
  function LaneOffset(attempt: nat, across: real): real
    requires attempt >= 1
  {
    var lane := (attempt - 1) % 5;
    CeilHalf(lane) as real * (across + SearchBuffer) * (if lane % 2 == 0 then 1.0 else -1.0)
  }

  /** How many whole groups of five attempts precede this attempt. */
  function GroupOffset(attempt: nat, along: real): real
    requires attempt >= 1
  {
    ((attempt - 1) / 5) as real * (along + SearchBuffer)
  }

  /** The point tried at attempt number `attempt` (counted from 1). "right"
      moves one column (width + 50) right every five attempts and cycles the
      row offsets 0, -s, +s, -2s, +2s (s = height + 50) within a group;
      "bottom" does the same with the axes exchanged; "any" walks the spiral
      of radius 50 per attempt at angle 0.5 per attempt. */
  function Candidate(q: Query, attempt: nat): (p: Point)
    requires attempt >= 1
    ensures q.direction.Right? ==>
              var s := q.height + SearchBuffer;
              p.x == q.preferred.x + ((attempt - 1) / 5) as real * (q.width + SearchBuffer) &&
              p.y == q.preferred.y + [0.0, -s, s, -2.0 * s, 2.0 * s][(attempt - 1) % 5]
    ensures q.direction.Bottom? ==>
              var s := q.width + SearchBuffer;
              p.x == q.preferred.x + [0.0, -s, s, -2.0 * s, 2.0 * s][(attempt - 1) % 5] &&
              p.y == q.preferred.y + ((attempt - 1) / 5) as real * (q.height + SearchBuffer)
    ensures q.direction.Any? ==>
              var angle := attempt as real * 0.5;
              var radius := attempt as real * 50.0;
              p == Point(q.preferred.x + q.direction.cos(angle) * radius, q.preferred.y + q.direction.sin(angle) * radius)
  {
    match q.direction
    case Right =>
      LaneCycle(attempt, q.height);
      Point(q.preferred.x + GroupOffset(attempt, q.width), q.preferred.y + LaneOffset(attempt, q.height))
    case Bottom =>
      LaneCycle(attempt, q.width);
      Point(q.preferred.x + LaneOffset(attempt, q.width), q.preferred.y + GroupOffset(attempt, q.height))
    case Any(cos, sin) =>
      var angle := attempt as real * 0.5;
      var radius := attempt as real * 50.0;
      Point(q.preferred.x + cos(angle) * radius, q.preferred.y + sin(angle) * radius)
  }

  /** Within a group, the lane offsets cycle 0, -s, +s, -2s, +2s. */
  lemma LaneCycle(attempt: nat, across: real)
    requires attempt >= 1
    ensures var s := across + SearchBuffer;
            LaneOffset(attempt, across) ==
              [0.0, -s, s, -2.0 * s, 2.0 * s][(attempt - 1) % 5]
  {
    var lane := (attempt - 1) % 5;
    assert CeilHalf(lane) == [0, 1, 1, 2, 2][lane];
  }

  /** The first attempt of the grid searches tries the preferred point again. */
  lemma FirstAttemptIsPreferred(q: Query)
    requires !q.direction.Any?
    ensures Candidate(q, 1) == q.preferred
  {
  }

  /** "right": five attempts later the search is one column (width + buffer)
      further right, in the same lane. */
  lemma RightAdvancesColumn(q: Query, attempt: nat)
    requires q.direction.Right? && attempt >= 1
    ensures Candidate(q, attempt + 5) ==
            Point(Candidate(q, attempt).x + (q.width + SearchBuffer), Candidate(q, attempt).y)
  {
    assert (attempt + 4) / 5 == (attempt - 1) / 5 + 1;
    assert (attempt + 4) % 5 == (attempt - 1) % 5;
  }

  /** "bottom" is the mirror image of "right": it is the "right" search with
      the axes exchanged. */
  lemma BottomMirrorsRight(q: Query, attempt: nat)
    requires q.direction.Bottom? && attempt >= 1
    ensures var m := Query(Point(q.preferred.y, q.preferred.x), q.height, q.width, q.existing, Direction.Right);
            var c := Candidate(m, attempt);
            Candidate(q, attempt) == Point(c.y, c.x)
  {
  }

  /** The first attempt, from `start` up to the cap, whose candidate is free. */
  function FirstFree(q: Query, start: nat): (r: Option<nat>)
    requires start >= 1
    ensures r.Some? ==> start <= r.value <= MaxAttempts
    ensures r.Some? ==> !HasCollision(q.existing, q.width, q.height, Candidate(q, r.value))
    ensures r.Some? ==> forall k :: start <= k < r.value ==> HasCollision(q.existing, q.width, q.height, Candidate(q, k))
    ensures r.None? ==> forall k :: start <= k <= MaxAttempts ==> HasCollision(q.existing, q.width, q.height, Candidate(q, k))
    decreases MaxAttempts + 1 - start
  {
    if start > MaxAttempts then None
    else if !HasCollision(q.existing, q.width, q.height, Candidate(q, start)) then Some(start)
    else FirstFree(q, start + 1)
  }

  /** What `getSmartPosition` returns: the preferred point if it is free;
      otherwise the first free candidate within 100 attempts; otherwise, the
      search being exhausted, the preferred point again. */
  function SmartPosition(q: Query): (r: Point)
    ensures !HasCollision(q.existing, q.width, q.height, q.preferred) ==> r == q.preferred
    ensures r == q.preferred || !HasCollision(q.existing, q.width, q.height, r)
    ensures (exists k :: 1 <= k <= MaxAttempts && !HasCollision(q.existing, q.width, q.height, Candidate(q, k)))
            ==> !HasCollision(q.existing, q.width, q.height, r)
  {
    if !HasCollision(q.existing, q.width, q.height, q.preferred) then q.preferred
    else
      match FirstFree(q, 1)
      case Some(k) => Candidate(q, k)
      case None => q.preferred
  }

  /** A point other than the preferred one is the first free candidate, found
      within the 100-attempt cap. */
  lemma MovedIsFirstFreeCandidate(q: Query)
    requires SmartPosition(q) != q.preferred
    ensures exists k :: 1 <= k <= MaxAttempts && SmartPosition(q) == Candidate(q, k)
                        && forall j :: 1 <= j < k ==> HasCollision(q.existing, q.width, q.height, Candidate(q, j))
  {
    var k := FirstFree(q, 1).value;
    assert SmartPosition(q) == Candidate(q, k);
  }

  /** When the preferred point collides and some attempt `k` within the cap
      is free, the search moves: it returns the first free candidate, found
      no later than attempt `k`. */
  lemma FreeAttemptIsFound(q: Query, k: nat)
    requires HasCollision(q.existing, q.width, q.height, q.preferred)
    requires 1 <= k <= MaxAttempts && !HasCollision(q.existing, q.width, q.height, Candidate(q, k))
    ensures FirstFree(q, 1).Some? && FirstFree(q, 1).value <= k
    ensures SmartPosition(q) == Candidate(q, FirstFree(q, 1).value)
    ensures !HasCollision(q.existing, q.width, q.height, SmartPosition(q))
  {
  }

  /** When the preferred point and all 100 candidates collide, the preferred
      point is returned (not the last candidate tried). */
  lemma ExhaustedKeepsPreferred(q: Query)
    requires HasCollision(q.existing, q.width, q.height, q.preferred)
    requires forall k :: 1 <= k <= MaxAttempts ==> HasCollision(q.existing, q.width, q.height, Candidate(q, k))
    ensures SmartPosition(q) == q.preferred
  {
  }

  /** `getSmartPosition`: test the preferred point, then try up to 100
      candidates in the order of the bias, stopping at the first free one. */
  method GetSmartPosition(preferredX: real, preferredY: real, width: real, height: real,
                          existingNodes: seq<Node>, direction: Direction) returns (p: Point)
    ensures p == SmartPosition(Query(Point(preferredX, preferredY), width, height, existingNodes, direction))
  {
    var q := Query(Point(preferredX, preferredY), width, height, existingNodes, direction);
    var x, y := preferredX, preferredY;
    var found := false;
    var attempts: nat := 0;

    if !HasCollision(existingNodes, width, height, Point(x, y)) {
      return Point(x, y);
    }

    while !found && attempts < MaxAttempts
      invariant attempts <= MaxAttempts
      invariant !found ==> x == preferredX && y == preferredY && FirstFree(q, 1) == FirstFree(q, attempts + 1)
      invariant found ==> attempts >= 1 && FirstFree(q, 1) == Some(attempts) && Point(x, y) == Candidate(q, attempts)
      decreases MaxAttempts - attempts, !found
    {
      attempts := attempts + 1;
      var tried := Candidate(q, attempts);
      if !HasCollision(existingNodes, width, height, tried) {
        x, y := tried.x, tried.y;
        found := true;
      }
    }
    p := Point(x, y);
  }

  /** A single 100x100 node at the origin; placing a 100x100 box at the origin
      with the "bottom" bias collides there and on attempt 1, and attempt 2
      (one lane to the left) is free. */
  lemma BottomBesideSingleNode()
    ensures var a := Node("A", Input, 0.0, 0.0, "", None, None, None, None, None, None, None, Some(100.0), Some(100.0));
            var q := Query(Point(0.0, 0.0), 100.0, 100.0, [a], Direction.Bottom);
            SmartPosition(q) == Point(-150.0, 0.0) && !HasCollision(q.existing, 100.0, 100.0, Point(-150.0, 0.0))
  {
    var a := Node("A", Input, 0.0, 0.0, "", None, None, None, None, None, None, None, Some(100.0), Some(100.0));
    var q := Query(Point(0.0, 0.0), 100.0, 100.0, [a], Direction.Bottom);
    assert q.existing[0] == a;
    assert CheckCollision(Rect(0.0, 0.0, 100.0, 100.0), ExistingBox(a), SearchBuffer);
    assert HasCollision(q.existing, 100.0, 100.0, Point(0.0, 0.0));
    assert Candidate(q, 1) == Point(0.0, 0.0);
    assert FirstFree(q, 1) == FirstFree(q, 2);
    assert Candidate(q, 2) == Point(-150.0, 0.0) by { LaneCycle(2, 100.0); }
    assert !CheckCollision(Rect(-150.0, 0.0, 100.0, 100.0), ExistingBox(a), SearchBuffer);
    assert !HasCollision(q.existing, 100.0, 100.0, Point(-150.0, 0.0));
    assert FirstFree(q, 2) == Some(2);
  }
}

=== FILE: router.dfy ===
/** The connection router (components/connection-line.tsx): from a connection
    and the node list to the cubic curve drawn between the two nodes, or to
    nothing when an endpoint is missing. */
module Router {
  import opened Graph

  /** The cubic Bezier segment of the SVG path `M start C c1, c2, end`
      (section 8.3.6 of SVG 1.1). */
  datatype Curve = Curve(start: Point, c1: Point, c2: Point, end: Point)

  /** Unmeasured (or zero) sizes: 450x200 for the source node, 450x100 for the target. */
  const FromDefaultWidth: real := 450.0
  const FromDefaultHeight: real := 200.0
  const ToDefaultWidth: real := 450.0
  const ToDefaultHeight: real := 100.0
  /** How far below its top edge a left-anchored target is entered. */
  const LeftEntryDrop: real := 40.0
  const DefaultStroke: string := "#444"

  /** Where the curve leaves the source node: the midpoint of its right or
      left edge, or (for "bottom", "top" and no anchor) of its bottom edge. */
  function StartAnchor(n: Node, side: Option<Anchor>): (p: Point)
    ensures var w := NumberOr(n.width, FromDefaultWidth);
            var h := NumberOr(n.height, FromDefaultHeight);
            && (side == Some(Right) ==> p.x == n.x + w && p.y - n.y == n.y + h - p.y)
            && (side == Some(Left) ==> p.x == n.x && p.y - n.y == n.y + h - p.y)
            && (side != Some(Right) && side != Some(Left) ==> p.y == n.y + h && p.x - n.x == n.x + w - p.x)
  {
    var w := NumberOr(n.width, FromDefaultWidth);
    var h := NumberOr(n.height, FromDefaultHeight);
    match side
    case Some(Right) => Point(n.x + w, n.y + h / 2.0)
    case Some(Left) => Point(n.x, n.y + h / 2.0)
    case _ => Point(n.x + w / 2.0, n.y + h)
  }

  /** Where the curve enters the target node: 40 below the top-left corner for
      "left", otherwise the midpoint of the top edge. */
  function EndAnchor(n: Node, side: Option<Anchor>): (p: Point)
    ensures side == Some(Left) ==> p.x == n.x && p.y - n.y == LeftEntryDrop
    ensures side != Some(Left) ==>
              var w := NumberOr(n.width, ToDefaultWidth);
              p.y == n.y && p.x - n.x == n.x + w - p.x
  {
    var w := NumberOr(n.width, ToDefaultWidth);
    match side
    case Some(Left) => Point(n.x, n.y + LeftEntryDrop)
    case _ => Point(n.x + w / 2.0, n.y)
  }

  /** The control points: a horizontal S-curve pulls each control point half
      the horizontal span away from its end, sideways; otherwise half the
      vertical span, up or down. The curve is point-symmetric about the
      midpoint of its ends. */
  function Bend(start: Point, end: Point, horizontal: bool): (r: Curve)
    ensures r.start == start && r.end == end
    ensures r.c1.x + r.c2.x == start.x + end.x && r.c1.y + r.c2.y == start.y + end.y
    ensures horizontal ==> r.c1.y == start.y && r.c2.y == end.y
    ensures horizontal ==> r.c1.x - start.x == end.x - r.c2.x == Abs(end.x - start.x) / 2.0
    ensures !horizontal ==> r.c1.x == start.x && r.c2.x == end.x
    ensures !horizontal ==> r.c1.y - start.y == end.y - r.c2.y == Abs(end.y - start.y) / 2.0
  {
    var dx := Abs(end.x - start.x);
    var dy := Abs(end.y - start.y);
    if horizontal then
      Curve(start, Point(start.x + dx * 0.5, start.y), Point(end.x - dx * 0.5, end.y), end)
    else
      Curve(start, Point(start.x, start.y + dy * 0.5), Point(end.x, end.y - dy * 0.5), end)
  }

  /** `ConnectionLine` without its markup: nothing when either endpoint id is
      missing from the node list, otherwise the curve between the anchors of
      the first nodes carrying those ids. */
  function Route(c: Connection, nodes: seq<Node>): (r: Option<Curve>)
    ensures r.Some? <==> HasNode(nodes, c.fromId) && HasNode(nodes, c.toId)
  {
    match (Find(nodes, NodeId, c.fromId), Find(nodes, NodeId, c.toId))
    case (Some(from), Some(to)) =>
      var horizontal := c.fromAnchor == Some(Right) && c.toAnchor == Some(Left);
      Some(Bend(StartAnchor(from, c.fromAnchor), EndAnchor(to, c.toAnchor), horizontal))
    case _ => None
  }

  /** `connection.color || "#444"`: a stroke colour is always drawn. */
  function StrokeColor(c: Connection): (r: string)
    ensures r != ""
    ensures Truthy(c.color) ==> r == c.color.value
    ensures !Truthy(c.color) ==> r == DefaultStroke
  {
    StringOr(c.color, DefaultStroke)
  }

  /** The routed curve starts at the source's anchor and ends at the target's,
      for the first node with each id, and only right-to-left connections are
      drawn as horizontal S-curves. */
  lemma RouteGeometry(c: Connection, nodes: seq<Node>, i: nat, j: nat)
    requires i < |nodes| && nodes[i].id == c.fromId && forall k :: 0 <= k < i ==> nodes[k].id != c.fromId
    requires j < |nodes| && nodes[j].id == c.toId && forall k :: 0 <= k < j ==> nodes[k].id != c.toId
    ensures Route(c, nodes).Some?
    ensures Route(c, nodes).value.start == StartAnchor(nodes[i], c.fromAnchor)
    ensures Route(c, nodes).value.end == EndAnchor(nodes[j], c.toAnchor)
    ensures var r := Route(c, nodes).value;
            if c.fromAnchor == Some(Right) && c.toAnchor == Some(Left)
            then r.c1.y == r.start.y && r.c2.y == r.end.y
            else r.c1.x == r.start.x && r.c2.x == r.end.x
  {
    FirstIndexIsFound(nodes, c.fromId, i);
    FirstIndexIsFound(nodes, c.toId, j);
  }

  lemma FirstIndexIsFound(nodes: seq<Node>, id: string, i: nat)
    requires i < |nodes| && nodes[i].id == id && forall k :: 0 <= k < i ==> nodes[k].id != id
    ensures Find(nodes, NodeId, id) == Some(nodes[i])
  {
  }

  /** The start anchor lies on the edge of the source node's box (of
      non-negative size): at half height on the right or left side, or at
      half width on the bottom side. */
  lemma StartAnchorOnBox(n: Node, side: Option<Anchor>)
    requires NumberOr(n.width, FromDefaultWidth) >= 0.0 && NumberOr(n.height, FromDefaultHeight) >= 0.0
    ensures var p := StartAnchor(n, side);
            var w := NumberOr(n.width, FromDefaultWidth);
            var h := NumberOr(n.height, FromDefaultHeight);
            n.x <= p.x <= n.x + w && n.y <= p.y <= n.y + h &&
            (p.x == n.x || p.x == n.x + w || p.y == n.y + h)
    ensures var p := StartAnchor(n, side);
            var w := NumberOr(n.width, FromDefaultWidth);
            var h := NumberOr(n.height, FromDefaultHeight);
            && (side == Some(Right) || side == Some(Left) ==> p.y == n.y + h / 2.0)
            && (!(side == Some(Right) || side == Some(Left)) ==> p.x == n.x + w / 2.0 && p.y == n.y + h)
  {
  }

  /** The end anchor lies on the target's left edge or top edge. */
  lemma EndAnchorOnBox(n: Node, side: Option<Anchor>)
    requires NumberOr(n.width, ToDefaultWidth) >= 0.0
    ensures var p := EndAnchor(n, side);
            (p.x == n.x && p.y == n.y + LeftEntryDrop) ||
            (p.y == n.y && n.x <= p.x <= n.x + NumberOr(n.width, ToDefaultWidth))
  {
  }
}

=== FILE: sidebar.dfy ===
/** The canvas history of components/sidebar.tsx: a list of saved snapshots
    of the graph, the id of the snapshot the canvas was loaded from or saved
    as, and the rename in progress. Persistence, fresh ids, clocks and
    display names are outside; they arrive as parameters. */
module History {
  import opened Graph
  import opened Store

  datatype HistoryItem = HistoryItem(id: string, name: string, timestamp: int, nodes: seq<Node>, connections: seq<Connection>)

  function ItemId(item: HistoryItem): string { item.id }

  /** How `saveCurrentCanvas` ended. */
  datatype SaveOutcome = Skipped | Updated | Created

  /** The guard `nodes.length <= 1 && nodes[0].content === ""` as written:
      `None` where evaluating it throws. */
  function EmptyCanvasGuard(nodes: seq<Node>): (r: Option<bool>)
    ensures r.None? <==> |nodes| == 0
    ensures r == Some(true) <==> |nodes| == 1 && nodes[0].content == ""
  {
    if |nodes| > 1 then Some(false)
    else if |nodes| == 0 then None
    else Some(nodes[0].content == "")
  }

  /** The guard as evidently intended: a canvas with no nodes, or with a
      single empty node, is not worth saving. */
  function IsEmptyCanvas(nodes: seq<Node>): (r: bool)
    ensures r <==> |nodes| <= 1 && forall i :: 0 <= i < |nodes| ==> nodes[i].content == ""
  {
    |nodes| == 0 || (|nodes| == 1 && nodes[0].content == "")
  }

  /** The intended guard agrees with the written one wherever that one does
      not throw. */
  lemma IntendedGuardAgrees(nodes: seq<Node>)
    ensures EmptyCanvasGuard(nodes).Some? ==> EmptyCanvasGuard(nodes) == Some(IsEmptyCanvas(nodes))
  {
  }

  /** Deleting the only node of a fresh canvas leaves no nodes, and then the
      written guard throws: "new canvas" fails before it resets. */
  lemma GuardThrowsAfterDeletingLastNode()
    ensures WithoutNode([InitialNode()], InitialNode().id) == []
    ensures EmptyCanvasGuard(WithoutNode([InitialNode()], InitialNode().id)).None?
    ensures IsEmptyCanvas(WithoutNode([InitialNode()], InitialNode().id))
  {
    assert [InitialNode()][1..] == [];
  }

  /** The snapshot with the id gets the current graph and timestamp; every
      other item, the length and the order are kept. */
  function ReplaceSnapshot(history: seq<HistoryItem>, id: string, nodes: seq<Node>, connections: seq<Connection>, timestamp: int)
    : (r: seq<HistoryItem>)
    ensures |r| == |history|
    ensures forall i :: 0 <= i < |history| ==>
              r[i] == if history[i].id == id then history[i].(nodes := nodes, connections := connections, timestamp := timestamp)
                      else history[i]
  {
    MapById(history, ItemId, id, (item: HistoryItem) => item.(nodes := nodes, connections := connections, timestamp := timestamp))
  }

  /** Only the name of the items with the id changes. */
  function Rename(history: seq<HistoryItem>, id: string, name: string): (r: seq<HistoryItem>)
    ensures |r| == |history|
    ensures forall i :: 0 <= i < |history| ==> r[i] == if history[i].id == id then history[i].(name := name) else history[i]
  {
    MapById(history, ItemId, id, (item: HistoryItem) => item.(name := name))
  }

  function OtherItem(id: string): HistoryItem -> bool {
    (item: HistoryItem) => item.id != id
  }

  /** Exactly the items without the id remain, in their order. */
  function WithoutItem(history: seq<HistoryItem>, id: string): (r: seq<HistoryItem>)
    ensures forall item :: item in r <==> item in history && item.id != id
  {
    Filter(history, OtherItem(id))
  }

  /** Deletion drops every item with the id and keeps every other item, as
      often as it occurred and in its order. */
  lemma DeleteKeepsOrder(history: seq<HistoryItem>, id: string)
    ensures Subsequence(WithoutItem(history, id), history)
    ensures forall i :: 0 <= i < |WithoutItem(history, id)| ==> WithoutItem(history, id)[i].id != id
    ensures forall item: HistoryItem :: item.id != id ==> multiset(WithoutItem(history, id))[item] == multiset(history)[item]
  {
    FilterIsSubsequence(history, OtherItem(id));
    FilterCounts(history, OtherItem(id));
    var r := WithoutItem(history, id);
    forall i | 0 <= i < |r|
      ensures r[i].id != id
    {
      assert r[i] in r;
    }
  }

  /** History and current id after a save. */
  datatype Saved = Saved(outcome: SaveOutcome, history: seq<HistoryItem>, current: Option<string>)

  /** `saveCurrentCanvas` with the intended guard, given the graph, the clock,
      a fresh id and a display name. Saving with a current id rewrites that
      snapshot only and keeps the length; saving without one prepends a
      snapshot of the graph and makes it current; a canvas with no content
      (no node, or one empty node) is not saved. */
  function Save(history: seq<HistoryItem>, current: Option<string>, nodes: seq<Node>, connections: seq<Connection>,
                timestamp: int, newId: string, name: string): (s: Saved)
    ensures s.outcome == Skipped <==> |nodes| == 0 || (|nodes| == 1 && nodes[0].content == "")
    ensures s.outcome == Updated <==> !IsEmptyCanvas(nodes) && Truthy(current)
    ensures s.outcome == Created <==> !IsEmptyCanvas(nodes) && !Truthy(current)
    ensures s.outcome == Skipped ==> s.history == history && s.current == current
    ensures s.outcome == Updated ==>
              && Truthy(current) && |s.history| == |history| && s.current == current
              && forall i :: 0 <= i < |history| && history[i].id != current.value ==> s.history[i] == history[i]
    ensures s.outcome == Updated ==>
              current.Some? && forall i :: 0 <= i < |history| && history[i].id == current.value ==>
                s.history[i] == history[i].(nodes := nodes, connections := connections, timestamp := timestamp)
    ensures s.outcome == Created ==>
              && |s.history| == |history| + 1 && s.history[1..] == history && s.current == Some(newId)
              && s.history[0] == HistoryItem(newId, name, timestamp, nodes, connections)
  {
    if IsEmptyCanvas(nodes) then Saved(Skipped, history, current)
    else if Truthy(current) then Saved(Updated, ReplaceSnapshot(history, current.value, nodes, connections, timestamp), current)
    else Saved(Created, [HistoryItem(newId, name, timestamp, nodes, connections)] + history, Some(newId))
  }

  /** The sidebar's state. */
  class Sidebar {
    var history: seq<HistoryItem>
    var editingId: Option<string>
    var editName: string
    var currentCanvasId: Option<string>

    constructor (saved: seq<HistoryItem>)
      ensures history == saved && editingId == None && editName == "" && currentCanvasId == None
    {
      history := saved;
      editingId := None;
      editName := "";
      currentCanvasId := None;
    }

    method SaveCurrentCanvas(store: CanvasStore, timestamp: int, newId: string, name: string) returns (outcome: SaveOutcome)
      modifies this
      ensures var s := Save(old(history), old(currentCanvasId), store.nodes, store.connections, timestamp, newId, name);
              outcome == s.outcome && history == s.history && currentCanvasId == s.current
      ensures editingId == old(editingId) && editName == old(editName)
    {
      if IsEmptyCanvas(store.nodes) {
        return Skipped;
      }
      if Truthy(currentCanvasId) {
        history := ReplaceSnapshot(history, currentCanvasId.value, store.nodes, store.connections, timestamp);
        outcome := Updated;
      } else {
        history := [HistoryItem(newId, name, timestamp, store.nodes, store.connections)] + history;
        currentCanvasId := Some(newId);
        outcome := Created;
      }
    }

    /** The effect that keeps the current snapshot in step with the graph
        while the sidebar is open. */
    method SyncCurrent(store: CanvasStore, isOpen: bool, timestamp: int)
      modifies this
      ensures Truthy(old(currentCanvasId)) && isOpen ==>
                history == ReplaceSnapshot(old(history), old(currentCanvasId).value, store.nodes, store.connections, timestamp)
      ensures !(Truthy(old(currentCanvasId)) && isOpen) ==> history == old(history)
      ensures currentCanvasId == old(currentCanvasId) && editingId == old(editingId) && editName == old(editName)
    {
      if Truthy(currentCanvasId) && isOpen {
        history := ReplaceSnapshot(history, currentCanvasId.value, store.nodes, store.connections, timestamp);
      }
    }

    method LoadCanvas(store: CanvasStore, item: HistoryItem)
      modifies this, store
      ensures store.State() == old(store.State()).(nodes := item.nodes, connections := item.connections)
      ensures currentCanvasId == Some(item.id)
      ensures history == old(history) && editingId == old(editingId) && editName == old(editName)
    {
      store.SetCanvas(item.nodes, item.connections);
      currentCanvasId := Some(item.id);
    }

    /** Saves, then resets the graph and forgets the current id. */
    method StartNewCanvas(store: CanvasStore, timestamp: int, newId: string, name: string) returns (outcome: SaveOutcome)
      modifies this, store
      ensures var s := Save(old(history), old(currentCanvasId), old(store.nodes), old(store.connections), timestamp, newId, name);
              outcome == s.outcome && history == s.history
      ensures store.State() == old(store.State()).(nodes := [InitialNode()], connections := [], selectedNodeId := None)
      ensures currentCanvasId == None
      ensures editingId == old(editingId) && editName == old(editName)
    {
      outcome := SaveCurrentCanvas(store, timestamp, newId, name);
      store.ResetCanvas();
      currentCanvasId := None;
    }

    method DeleteCanvas(id: string)
      modifies this
      ensures history == WithoutItem(old(history), id)
      ensures currentCanvasId == if old(currentCanvasId) == Some(id) then None else old(currentCanvasId)
      ensures editingId == old(editingId) && editName == old(editName)
    {
      history := WithoutItem(history, id);
      if currentCanvasId == Some(id) {
        currentCanvasId := None;
      }
    }

    method StartEditing(item: HistoryItem)
      modifies this
      ensures editingId == Some(item.id) && editName == item.name
      ensures history == old(history) && currentCanvasId == old(currentCanvasId)
    {
      editingId := Some(item.id);
      editName := item.name;
    }

    /** Renames the item being edited and ends the edit; without an edit in
        progress nothing changes. */
    method SaveName()
      modifies this
      ensures Truthy(old(editingId)) ==> history == Rename(old(history), old(editingId).value, old(editName)) && editingId == None
      ensures !Truthy(old(editingId)) ==> history == old(history) && editingId == old(editingId)
      ensures editName == old(editName) && currentCanvasId == old(currentCanvasId)
    {
      if Truthy(editingId) {
        history := Rename(history, editingId.value, editName);
        editingId := None;
      }
    }
  }
}

=== FILE: store.dfy ===
/** The graph store (lib/store.ts): the canonical node, connection and agent
    lists and the commands that replace them. Each command's new list is a
    function of the old one, given first; the class applies them. */
module Store {
  import opened Graph

  /** The single node of a fresh canvas. */
  function InitialNode(): Node {
    Node("1", Input, 600.0, 400.0, "", Some("Agent 1"), Some("agent-1"), Some("#3b82f6"),
         None, None, None, None, Some(400.0), None)
  }

  function PredefinedAgents(): seq<Agent> {
    [ Agent("agent-1", "Agent 1", "#3b82f6", None, None),
      Agent("agent-2", "Agent 2", "#8b5cf6", None, None),
      Agent("agent-3", "Agent 3", "#10b981", None, None),
      Agent("agent-4", "Agent 4", "#f59e0b", None, None),
      Agent("agent-5", "Agent 5", "#ef4444", None, None),
      Agent("agent-6", "Agent 6", "#ec4899", None, None) ]
  }

  /** `updateNode`: the patch is merged into every node with the id; every
      other node, the length and the order are kept. */
  function UpdateNodes(nodes: seq<Node>, id: string, patch: NodePatch): (r: seq<Node>)
    ensures |r| == |nodes|
    ensures forall i :: 0 <= i < |nodes| ==> r[i] == if nodes[i].id == id then Merge(nodes[i], patch) else nodes[i]
  {
    MapById(nodes, NodeId, id, (n: Node) => Merge(n, patch))
  }

  /** `updateNodeContent`: only the content of the nodes with the id changes. */
  function SetContent(nodes: seq<Node>, id: string, content: string): (r: seq<Node>)
    ensures |r| == |nodes|
    ensures forall i :: 0 <= i < |nodes| ==> r[i] == if nodes[i].id == id then nodes[i].(content := content) else nodes[i]
  {
    MapById(nodes, NodeId, id, (n: Node) => n.(content := content))
  }

  /** `updateNodePosition`: only `x` and `y` of the nodes with the id change. */
  function SetPosition(nodes: seq<Node>, id: string, x: real, y: real): (r: seq<Node>)
    ensures |r| == |nodes|
    ensures forall i :: 0 <= i < |nodes| ==> r[i] == if nodes[i].id == id then nodes[i].(x := x, y := y) else nodes[i]
  {
    MapById(nodes, NodeId, id, (n: Node) => n.(x := x, y := y))
  }

  /** `toggleNodeExpanded`: `expanded := !expanded`, an absent flag reading as false. */
  function ToggleExpanded(nodes: seq<Node>, id: string): (r: seq<Node>)
    ensures |r| == |nodes|
    ensures forall i :: 0 <= i < |nodes| && nodes[i].id == id ==>
              r[i].expanded == Some(nodes[i].expanded != Some(true)) && r[i].(expanded := nodes[i].expanded) == nodes[i]
    ensures forall i :: 0 <= i < |nodes| && nodes[i].id != id ==> r[i] == nodes[i]
  {
    MapById(nodes, NodeId, id, (n: Node) => n.(expanded := Some(!(n.expanded == Some(true)))))
  }

  /** The node half of `removeNode`: exactly the nodes without the id remain. */
  function WithoutNode(nodes: seq<Node>, id: string): (r: seq<Node>)
    ensures forall n :: n in r <==> n in nodes && n.id != id
  {
    Filter(nodes, OtherNode(id))
  }

  /** The filter predicate `n => n.id !== id`. */
  function OtherNode(id: string): Node -> bool {
    (n: Node) => n.id != id
  }

  /** The filter predicate `c => c.fromId !== id && c.toId !== id`. */
  function Untouched(id: string): Connection -> bool {
    (c: Connection) => c.fromId != id && c.toId != id
  }

  /** The connection half of `removeNode`: exactly the connections that touch
      neither end at the id remain. */
  function WithoutEdgesOf(connections: seq<Connection>, id: string): (r: seq<Connection>)
    ensures forall c :: c in r <==> c in connections && c.fromId != id && c.toId != id
  {
    Filter(connections, Untouched(id))
  }

  /** `updateAgent`: the patch is merged into the agents with the id only. */
  function UpdateAgents(agents: seq<Agent>, id: string, patch: AgentPatch): (r: seq<Agent>)
    ensures |r| == |agents|
    ensures forall i :: 0 <= i < |agents| ==> r[i] == if agents[i].id == id then MergeAgent(agents[i], patch) else agents[i]
  {
    MapById(agents, AgentId, id, (a: Agent) => MergeAgent(a, patch))
  }

  /** Updating an id that no node carries leaves the list as it was. */
  lemma UpdateAbsentIsNoop(nodes: seq<Node>, id: string, patch: NodePatch)
    requires !HasNode(nodes, id)
    ensures UpdateNodes(nodes, id, patch) == nodes
  {
    var r := UpdateNodes(nodes, id, patch);
    assert forall i :: 0 <= i < |nodes| ==> r[i] == nodes[i];
  }

  /** After `removeNode(id)` no node has the id, no connection touches it,
      every other node and connection is kept as often as it occurred, and
      what remains keeps its relative order. */
  lemma RemoveCascades(nodes: seq<Node>, connections: seq<Connection>, id: string)
    ensures !HasNode(WithoutNode(nodes, id), id)
    ensures forall c :: c in WithoutEdgesOf(connections, id) ==> c.fromId != id && c.toId != id
    ensures forall n: Node :: n.id != id ==> multiset(WithoutNode(nodes, id))[n] == multiset(nodes)[n]
    ensures forall c: Connection :: c.fromId != id && c.toId != id ==>
              multiset(WithoutEdgesOf(connections, id))[c] == multiset(connections)[c]
    ensures Subsequence(WithoutNode(nodes, id), nodes)
    ensures Subsequence(WithoutEdgesOf(connections, id), connections)
  {
    FilterCounts(nodes, OtherNode(id));
    FilterCounts(connections, Untouched(id));
    var r := WithoutNode(nodes, id);
    forall i | 0 <= i < |r|
      ensures r[i].id != id
    {
      assert r[i] in r;
    }
    FilterIsSubsequence(nodes, OtherNode(id));
    FilterIsSubsequence(connections, Untouched(id));
  }

  /** A removal never leaves a dangling connection behind in a graph that had none. */
  lemma RemoveKeepsNoDangling(nodes: seq<Node>, connections: seq<Connection>, id: string)
    requires NoDangling(nodes, connections)
    ensures NoDangling(WithoutNode(nodes, id), WithoutEdgesOf(connections, id))
  {
    var rn := WithoutNode(nodes, id);
    forall c | c in WithoutEdgesOf(connections, id)
      ensures HasNode(rn, c.fromId) && HasNode(rn, c.toId)
    {
      KeptEndpoint(nodes, id, c.fromId);
      KeptEndpoint(nodes, id, c.toId);
    }
  }

  lemma KeptEndpoint(nodes: seq<Node>, id: string, end: string)
    requires HasNode(nodes, end) && end != id
    ensures HasNode(WithoutNode(nodes, id), end)
  {
    var i :| 0 <= i < |nodes| && nodes[i].id == end;
    var r := WithoutNode(nodes, id);
    assert nodes[i] in r;
    var j :| 0 <= j < |r| && r[j] == nodes[i];
  }

  /** Appending a node whose id is fresh keeps the ids unique. */
  lemma AddKeepsUniqueIds(nodes: seq<Node>, n: Node)
    requires UniqueIds(nodes) && !HasNode(nodes, n.id)
    ensures UniqueIds(nodes + [n])
  {
  }

  /** A patch that does not write `id` keeps every node's id, hence keeps ids unique. */
  lemma UpdateKeepsUniqueIds(nodes: seq<Node>, id: string, patch: NodePatch)
    requires UniqueIds(nodes) && patch.id.None?
    ensures UniqueIds(UpdateNodes(nodes, id, patch))
  {
    var r := UpdateNodes(nodes, id, patch);
    assert forall i :: 0 <= i < |nodes| ==> r[i].id == nodes[i].id;
  }

  /** Removing by id keeps ids unique. */
  lemma {:induction false} RemoveKeepsUniqueIds(nodes: seq<Node>, id: string)
    requires UniqueIds(nodes)
    ensures UniqueIds(WithoutNode(nodes, id))
    decreases |nodes|
  {
    if nodes != [] {
      var tail := nodes[1..];
      assert UniqueIds(tail);
      RemoveKeepsUniqueIds(tail, id);
      var rest := WithoutNode(tail, id);
      assert WithoutNode(nodes, id) == (if nodes[0].id != id then [nodes[0]] else []) + rest;
      forall m | m in rest
        ensures m.id != nodes[0].id
      {
        var k :| 0 <= k < |tail| && tail[k] == m;
        assert nodes[k + 1] == m;
      }
    }
  }

  /** `addNode(n)` followed by `removeNode(n.id)` restores both lists when the
      id was fresh and no connection mentioned it. */
  lemma AddThenRemoveRestores(nodes: seq<Node>, connections: seq<Connection>, n: Node)
    requires !HasNode(nodes, n.id)
    requires forall c :: c in connections ==> c.fromId != n.id && c.toId != n.id
    ensures WithoutNode(nodes + [n], n.id) == nodes
    ensures WithoutEdgesOf(connections, n.id) == connections
  {
    var keep := OtherNode(n.id);
    FilterAppend(nodes, [n], keep);
    FilterKeepsAll(nodes, keep);
    assert Filter([n], keep) == [];
    var keepEdge := Untouched(n.id);
    assert forall i :: 0 <= i < |connections| ==> connections[i] in connections;
    FilterKeepsAll(connections, keepEdge);
  }

  /** Updates of two different nodes (patches that leave ids alone) commute, so
      two completions resolving in either order give the same list. */
  lemma UpdatesOfDistinctNodesCommute(nodes: seq<Node>, a: string, pa: NodePatch, b: string, pb: NodePatch)
    requires a != b && pa.id.None? && pb.id.None?
    ensures UpdateNodes(UpdateNodes(nodes, a, pa), b, pb) == UpdateNodes(UpdateNodes(nodes, b, pb), a, pa)
  {
    var ab := UpdateNodes(UpdateNodes(nodes, a, pa), b, pb);
    var ba := UpdateNodes(UpdateNodes(nodes, b, pb), a, pa);
    forall i | 0 <= i < |nodes|
      ensures ab[i] == ba[i]
    {
    }
  }

  /** The store's fields, for stating a command's whole effect at once. */
  datatype CanvasState = CanvasState(
    nodes: seq<Node>,
    connections: seq<Connection>,
    selectedNodeId: Option<string>,
    agents: seq<Agent>,
    systemPrompt: string)

  /** `useCanvasStore` */
  class CanvasStore {
    var nodes: seq<Node>
    var connections: seq<Connection>
    var selectedNodeId: Option<string>
    var agents: seq<Agent>
    var systemPrompt: string

    function State(): CanvasState
      reads this
    {
      CanvasState(nodes, connections, selectedNodeId, agents, systemPrompt)
    }

    constructor ()
      ensures State() == CanvasState([InitialNode()], [], None, PredefinedAgents(), "")
    {
      nodes := [InitialNode()];
      connections := [];
      selectedNodeId := None;
      agents := PredefinedAgents();
      systemPrompt := "";
    }

    method AddNode(node: Node)
      modifies this
      ensures State() == old(State()).(nodes := old(nodes) + [node])
    {
      nodes := nodes + [node];
    }

    method UpdateNode(id: string, patch: NodePatch)
      modifies this
      ensures State() == old(State()).(nodes := UpdateNodes(old(nodes), id, patch))
    {
      nodes := UpdateNodes(nodes, id, patch);
    }

    method UpdateNodeContent(id: string, content: string)
      modifies this
      ensures State() == old(State()).(nodes := SetContent(old(nodes), id, content))
    {
      nodes := SetContent(nodes, id, content);
    }

    method UpdateNodePosition(id: string, x: real, y: real)
      modifies this
      ensures State() == old(State()).(nodes := SetPosition(old(nodes), id, x, y))
    {
      nodes := SetPosition(nodes, id, x, y);
    }

    method RemoveNode(id: string)
      modifies this
      ensures State() == old(State()).(nodes := WithoutNode(old(nodes), id),
                                       connections := WithoutEdgesOf(old(connections), id))
    {
      nodes := WithoutNode(nodes, id);
      connections := WithoutEdgesOf(connections, id);
    }

    method ToggleNodeExpanded(id: string)
      modifies this
      ensures State() == old(State()).(nodes := ToggleExpanded(old(nodes), id))
    {
      nodes := ToggleExpanded(nodes, id);
    }

    /** Appends with no check that the endpoints exist or that the edge is new. */
    method AddConnection(connection: Connection)
      modifies this
      ensures State() == old(State()).(connections := old(connections) + [connection])
    {
      connections := connections + [connection];
    }

    method SelectNode(id: Option<string>)
      modifies this
      ensures State() == old(State()).(selectedNodeId := id)
    {
      selectedNodeId := id;
    }

    method AddAgent(agent: Agent)
      modifies this
      ensures State() == old(State()).(agents := old(agents) + [agent])
    {
      agents := agents + [agent];
    }

    method UpdateAgent(id: string, patch: AgentPatch)
      modifies this
      ensures State() == old(State()).(agents := UpdateAgents(old(agents), id, patch))
    {
      agents := UpdateAgents(agents, id, patch);
    }

    method SetSystemPrompt(prompt: string)
      modifies this
      ensures State() == old(State()).(systemPrompt := prompt)
    {
      systemPrompt := prompt;
    }

    /** One fresh input node, no connections, nothing selected; agents and the
        system prompt are kept. */
    method ResetCanvas()
      modifies this
      ensures State() == old(State()).(nodes := [InitialNode()], connections := [], selectedNodeId := None)
      ensures |nodes| == 1 && nodes[0].id == "1" && nodes[0].kind == Input
      ensures nodes[0].x == 600.0 && nodes[0].y == 400.0 && nodes[0].content == ""
    {
      nodes := [InitialNode()];
      connections := [];
      selectedNodeId := None;
    }

    /** Replaces the graph wholesale; agents, prompt and selection are kept. */
    method SetCanvas(newNodes: seq<Node>, newConnections: seq<Connection>)
      modifies this
      ensures State() == old(State()).(nodes := newNodes, connections := newConnections)
    {
      nodes := newNodes;
      connections := newConnections;
    }
  }
}

=== FILE: viewport.dfy ===
/** The viewport of the canvas (components/canvas.tsx): pan offset and zoom
    scale, changed by wheel zoom-to-cursor, wheel pan, drag pan and
    centering on a node. The pan is in screen pixels; a canvas point `c` is
    drawn at `c * scale + pan`. */
module Viewport {
  import opened Graph

  const MinScale: real := 0.2
  const MaxScale: real := 3.0
  const ZoomSensitivity: real := 0.001
  /** Size assumed for a node that has not been measured (or measured as 0). */
  const DefaultWidth: real := 450.0
  const DefaultHeight: real := 200.0

  /** The fields of a wheel event the handler reads. */
  datatype WheelEvent = WheelEvent(ctrlKey: bool, metaKey: bool, deltaX: real, deltaY: real, clientX: real, clientY: real)

  /** The top-left corner of the container's bounding rectangle on screen. */
  datatype ClientRect = ClientRect(left: real, top: real)

  /** `Math.min(Math.max(0.2, scale - deltaY * 0.001), 3)`: the requested
      scale, clamped to [0.2, 3]. */
  function ClampScale(scale: real, deltaY: real): (r: real)
    ensures MinScale <= r <= MaxScale
    ensures var wanted := scale - deltaY * ZoomSensitivity;
            (MinScale <= wanted <= MaxScale ==> r == wanted) &&
            (wanted < MinScale ==> r == MinScale) &&
            (wanted > MaxScale ==> r == MaxScale)
  {
    var atLeast := if MinScale > scale - deltaY * ZoomSensitivity then MinScale else scale - deltaY * ZoomSensitivity;
    if atLeast < MaxScale then atLeast else MaxScale
  }

  /** The canvas point shown at screen point `p`. */
  function ScreenToCanvas(p: Point, pan: Point, scale: real): Point
    requires scale != 0.0
  {
    Point((p.x - pan.x) / scale, (p.y - pan.y) / scale)
  }

  /** The screen point at which canvas point `c` is shown. */
  function CanvasToScreen(c: Point, pan: Point, scale: real): Point {
    Point(c.x * scale + pan.x, c.y * scale + pan.y)
  }

  lemma ScreenCanvasRoundTrip(p: Point, pan: Point, scale: real)
    requires scale != 0.0
    ensures CanvasToScreen(ScreenToCanvas(p, pan, scale), pan, scale) == p
  {
    var c := ScreenToCanvas(p, pan, scale);
    assert c.x * scale == p.x - pan.x;
    assert c.y * scale == p.y - pan.y;
  }

  /** The pan after zooming from `scale` to `newScale` at `mouse`: the canvas
      point under the cursor stays under it, on both axes. */
  function ZoomPan(mouse: Point, pan: Point, scale: real, newScale: real): (r: Point)
    requires scale != 0.0
    ensures CanvasToScreen(ScreenToCanvas(mouse, pan, scale), r, newScale) == mouse
    ensures newScale != 0.0 ==> ScreenToCanvas(mouse, r, newScale) == ScreenToCanvas(mouse, pan, scale)
  {
    var c := ScreenToCanvas(mouse, pan, scale);
    var r := Point(mouse.x - c.x * newScale, mouse.y - c.y * newScale);
    r
  }

  /** The pan that puts the centre of the node's box (`width || 450` by
      `height || 200`) at the centre of the viewport, at the given scale. */
  function CenterPan(n: Node, scale: real, viewportWidth: real, viewportHeight: real): (r: Point)
    ensures var center := Point(n.x + NumberOr(n.width, DefaultWidth) / 2.0, n.y + NumberOr(n.height, DefaultHeight) / 2.0);
            CanvasToScreen(center, r, scale) == Point(viewportWidth / 2.0, viewportHeight / 2.0)
  {
    var w := NumberOr(n.width, DefaultWidth);
    var h := NumberOr(n.height, DefaultHeight);
    Point(viewportWidth / 2.0 - (n.x + w / 2.0) * scale, viewportHeight / 2.0 - (n.y + h / 2.0) * scale)
  }

  /** Zooming in from scale 1 to 2 at (400, 300) with the pan at the origin
      moves the pan to (-400, -300). */
  lemma ZoomFromOriginExample()
    ensures ClampScale(1.0, -1000.0) == 2.0
    ensures ZoomPan(Point(400.0, 300.0), Point(0.0, 0.0), 1.0, 2.0) == Point(-400.0, -300.0)
  {
    assert ScreenToCanvas(Point(400.0, 300.0), Point(0.0, 0.0), 1.0) == Point(400.0, 300.0);
  }

  /** The pan/zoom state of `Canvas`. */
  class Viewport {
    var position: Point
    var scale: real
    var isPanning: bool

    /** The scale never leaves [0.2, 3]. */
    ghost predicate Valid()
      reads this
    {
      MinScale <= scale <= MaxScale
    }

    constructor ()
      ensures Valid() && position == Point(0.0, 0.0) && scale == 1.0 && !isPanning
    {
      position := Point(0.0, 0.0);
      scale := 1.0;
      isPanning := false;
    }

    /** With ctrl or meta: zoom to the cursor, or do nothing when the container
        has no rectangle. Without: pan by minus the wheel deltas. */
    method HandleWheel(e: WheelEvent, rect: Option<ClientRect>)
      requires Valid()
      modifies this
      ensures Valid() && isPanning == old(isPanning)
      ensures (e.ctrlKey || e.metaKey) && rect.None? ==> position == old(position) && scale == old(scale)
      ensures (e.ctrlKey || e.metaKey) && rect.Some? ==>
                var mouse := Point(e.clientX - rect.value.left, e.clientY - rect.value.top);
                scale == ClampScale(old(scale), e.deltaY) &&
                position == ZoomPan(mouse, old(position), old(scale), scale)
      ensures !(e.ctrlKey || e.metaKey) ==>
                position == Point(old(position).x - e.deltaX, old(position).y - e.deltaY) && scale == old(scale)
    {
      if e.ctrlKey || e.metaKey {
        var newScale := ClampScale(scale, e.deltaY);
        if rect.None? {
          return;
        }
        var mouse := Point(e.clientX - rect.value.left, e.clientY - rect.value.top);
        var newPosition := ZoomPan(mouse, position, scale, newScale);
        scale := newScale;
        position := newPosition;
      } else {
        position := Point(position.x - e.deltaX, position.y - e.deltaY);
      }
    }

    /** A press starts panning unless it lands on a button, input, textarea,
        node content or drag handle. */
    method HandleMouseDown(onInteractiveElement: bool)
      modifies this
      ensures position == old(position) && scale == old(scale)
      ensures isPanning == (old(isPanning) || !onInteractiveElement)
    {
      if onInteractiveElement {
        return;
      }
      isPanning := true;
    }

    /** While panning, the pan follows the pointer's movement. */
    method HandleMouseMove(movementX: real, movementY: real)
      modifies this
      ensures scale == old(scale) && isPanning == old(isPanning)
      ensures old(isPanning) ==> position == Point(old(position).x + movementX, old(position).y + movementY)
      ensures !old(isPanning) ==> position == old(position)
    {
      if isPanning {
        position := Point(position.x + movementX, position.y + movementY);
      }
    }

    method HandleMouseUp()
      modifies this
      ensures !isPanning && position == old(position) && scale == old(scale)
    {
      isPanning := false;
    }

    /** Pans so the first node with the id sits at the centre of the window;
        does nothing when no node has the id. */
    method CenterNode(nodes: seq<Node>, id: string, viewportWidth: real, viewportHeight: real)
      modifies this
      ensures scale == old(scale) && isPanning == old(isPanning)
      ensures Find(nodes, NodeId, id).None? ==> position == old(position)
      ensures Find(nodes, NodeId, id).Some? ==>
                position == CenterPan(Find(nodes, NodeId, id).value, scale, viewportWidth, viewportHeight)
    {
      var node := Find(nodes, NodeId, id);
      if node.None? {
        return;
      }
      position := CenterPan(node.value, scale, viewportWidth, viewportHeight);
    }
  }
}
